=== FILE: README.md ===
# rag-app-alpha orchestration layer in Dafny

This project models the decision and assembly rules of rag-app-alpha. That is a Next.js application that sends a user's picks, free text or chat history to a configurable "API endpoint". The endpoint is either the app's own dispatch route, which calls OpenAI or Azure OpenAI, or an external retrieval backend. The app then logs the exchange and stores the results.

The model covers the following, as pure functions over immutable datatypes:
- the dispatch route, which composes the system message, picks the conversation and selects the vendor;
- the two provider clients and their system-parameter fallbacks;
- the usage-log record and the usage-log route;
- the password-change route;
- the role-gated navigation;
- the client-side request assembly of the three conversation pages (free chat, new consultation, interview);
- the consultation list's pagination and choice chips.

Every network call, database query, the clock, `ulid()`, bcrypt and `JSON.parse` of a model reply is a parameter. A throwing call is `None` or `false`.

JavaScript behaviour the code relies on is written out in module `Js`:
- truthiness and `||`;
- template strings rendering `undefined`;
- `slice` with negative indices;
- `split(',')[0]`;
- objects as ordered key lists, where assignment keeps a key's position.

`FlatJson` is a concrete `JSON.stringify`/`JSON.parse` for the flat string-to-string objects stored in the `choices` column and the `totalPrompts` log field. Its round trip is proved.

Modules follow the source files:

| module | source file |
|---|---|
| `GptRoute` | `src/pages/api/private/gpt.ts` |
| `OpenAi`, `AzureOpenAi`, `SystemParameters` | `src/utils/openai.ts`, `src/utils/azureOpenai.ts` |
| `GptLogging` | `src/utils/logGptData.ts` |
| `GptLogsApi` | `src/pages/api/private/gpt-logs/index.ts` |
| `PasswordApi` | `src/pages/api/private/users/password.ts` |
| `Navigation` | `src/components/ListItems.tsx` |
| `ChatsPage` | `src/pages/chats/index.tsx` |
| `NewConsultation` | `src/pages/consultations/new.tsx` |
| `InterviewsPage` | `src/pages/interviews/index.tsx` |
| `ConsultationsList` | `src/pages/consultations/index.tsx` |

Three modules are shared:
- `PromptDisplay` holds the five-spread `displayPrompts` rule.
- `Domain` holds the records.
- `JsonValue` holds property access and `Object.values` on a parsed reply.

## Model

| member | source | states |
|---|---|---|
| GptRoute.SystemPrompts | src/pages/api/private/gpt.ts:12-21 | exactly one system message; its content is the user inputs (empty when missing) followed by the primary prompt (empty when missing) |
| GptRoute.Conversations | src/pages/api/private/gpt.ts:23-32 | a truthy secondary prompt gives one user message holding it; otherwise the caller's `messages`, unchanged |
| GptRoute.Outbound | src/pages/api/private/gpt.ts:34-40 | a provider request exists exactly when there is a conversation; it holds the one system message followed by the conversation; the OpenAI request goes to the OpenAI base URL with the resolved model, and the Azure request carries no model |
| GptRoute.Handle | src/pages/api/private/gpt.ts:6-55 | covers four cases: (1) a non-POST answers 405 with a `{message}` object and no provider call; (2) a POST issues the vendor's request; (3) 200 exactly when a completion with data came back, and then the body is that data plus `totalPrompts` holding the one system content; (4) every other POST answers 500 with the fixed error text as a bare JSON string |
| GptRoute.VendorDispatch | src/pages/api/private/gpt.ts:34-40 | an unset, empty or `OPENAI` vendor sends the OpenAI request; any other vendor sends the Azure request with the same system message and conversation |
| GptRoute.SecondaryPromptReplacesHistory | src/pages/api/private/gpt.ts:25-29 | with a truthy secondary prompt the outbound messages are the system message and the secondary prompt, whatever `messages` the caller sent |
| GptRoute.HistoryForwarded | src/pages/api/private/gpt.ts:30-32 | without a secondary prompt the caller's history follows the system message, with the same length and order |
| GptRoute.LaterPromptsInert | src/pages/api/private/gpt.ts:12-14 | changing the tertiary, quaternary or quinary prompt changes neither the provider request nor the reply |
| GptRoute.MissingMessagesFail | src/pages/api/private/gpt.ts:30-53 | no secondary prompt and no `messages` answers 500 without any provider request |
| SystemParameters.Resolve | src/utils/openai.ts:24-35 | a non-empty stored value wins; a missing or empty one falls back to the environment; a failed lookup yields undefined |
| SystemParameters.StoredValueShadowsEnv | src/utils/openai.ts:31 | a non-empty stored value makes the environment irrelevant |
| OpenAi.ModelName | src/utils/openai.ts:24-35 | the model is the stored `OpenAiModelName` when non-empty, else the environment's; a failed lookup gives undefined |
| OpenAi.Request | src/utils/openai.ts:14-46 | a request exists exactly when a conversation is given; it goes to `/chat/completions` at the OpenAI base URL with the bearer key; it carries the resolved model and the system messages followed by the conversation |
| OpenAi.Completion | src/utils/openai.ts:37-51 | no conversation means no response; with a conversation the response is exactly the transport's answer to that request, and a throwing transport yields undefined |
| AzureOpenAi.Deployment | src/utils/azureOpenai.ts:21-32 | the stored `AzureGptDeployment` when non-empty, else the environment's; a failed lookup gives undefined |
| AzureOpenAi.Version | src/utils/azureOpenai.ts:34-45 | the stored `AzureGptVersion` when non-empty, else the environment's; a failed lookup gives undefined |
| AzureOpenAi.CreateClient | src/utils/azureOpenai.ts:47-60 | the base URL is the endpoint, a slash and the deployment (undefined renders as "undefined"); the key goes in `api-key` |
| AzureOpenAi.AgentAlwaysInsecure | src/utils/azureOpenai.ts:53-54 | the later `httpsAgent` key overrides the spread proxy agent: one agent entry, always the certificate-ignoring agent |
| AzureOpenAi.Request | src/utils/azureOpenai.ts:62-75 | the path is `/chat/completions?api-version=` plus the version; the body has no model; it goes through the agent that skips certificate checks and authenticates with the API-key header; the messages are the system messages followed by the conversation |
| AzureOpenAi.Completion | src/utils/azureOpenai.ts:62-81 | no conversation means no response; with a conversation the response is exactly the transport's answer to that request |
| Domain.OutboundMessages | src/utils/openai.ts:45 | the messages exist exactly when the conversation does; their length is the sum; the system messages come first and the conversation follows unchanged |
| Domain.FindByEmail | src/pages/api/private/users/password.ts:15-17 | the user with that e-mail when one is stored, and nothing exactly when none is |
| GptLogging.Payload | src/utils/logGptData.ts:11-31 | a record exists exactly when the reply has `usage` and a choice; reading either from a reply without it throws. `responseTime` is `endedAt - startedAt`. The token counts, model and first choice's content are copied. `totalPrompts` is present exactly when the reply has it, and its text then parses back to the prompts keyed by index. Prompt, vendor, use case, endpoint name and start time pass through |
| GptLogging.ResponseTimeNonNegative | src/utils/logGptData.ts:11-12 | the latency is non-negative when the end is not before the start |
| GptLogging.IndexKeyed | src/pages/api/private/gpt.ts:48 | `{ ...array }`: one entry per element, keyed by its decimal index |
| GptLogging.IndexKeysUnique | src/pages/api/private/gpt.ts:48 | the index keys are pairwise distinct |
| GptLogging.IndexKeyedRoundTrip | src/utils/logGptData.ts:24 | the stringified index-keyed prompts parse back to the same object |
| GptLogging.TotalPromptsReadBack | src/utils/logGptData.ts:17-31 | for every successful log call, the record actually posted has `totalPrompts` exactly when the reply carries prompts, and that text parses back to them keyed by index |
| GptLogging.LogGptData | src/utils/logGptData.ts:3-39 | the call succeeds exactly when a record can be built and its POST succeeds; the record posted is the payload; every failure reaches the caller |
| GptLogsApi.ClientIp | src/pages/api/private/gpt-logs/index.ts:19 | a single header value gives its text up to the first comma (the whole text without one); otherwise the socket address |
| GptLogsApi.LogsOf | src/pages/api/private/gpt-logs/index.ts:22-27 | a record is listed exactly when it is stored and belongs to the user |
| GptLogsApi.LogsOfConcat | src/pages/api/private/gpt-logs/index.ts:23-25 | the listing of two stores is the two listings in order, and one record is listed once exactly when it is the user's: the listing keeps the store's order and multiplicity |
| GptLogsApi.Handle | src/pages/api/private/gpt-logs/index.ts:7-79 | the handler as written, as a finding: (1) a missing session throws before any reply; (2) GET for a known user answers 200 with exactly that user's records in store order, and an unknown user throws; (3) POST for a known user appends one record carrying the body, the derived address and the user's id, and answers it, while a failed insert or an unknown user answers 200 with the error text; (4) other methods answer 405; (5) the store changes only by that append |
| GptLogsApi.CreateFailureAnswers200 | src/pages/api/private/gpt-logs/index.ts:70-73 | a failed insert is still answered with status 200 and the store is unchanged |
| GptLogsApi.NeverUnauthorized | src/pages/api/private/gpt-logs/index.ts:10-17 | the handler as written never answers 401 |
| GptLogsApi.HandleChecked | src/pages/api/private/gpt-logs/index.ts:14-17 | checking the session first answers 401 exactly when it is missing, and otherwise behaves as the handler |
| GptLogsApi.LoggedCompletionIsStored | src/utils/logGptData.ts:15-33 | a page's successful log call, received by the route for a signed-in user, stores one record with the measured latency, the reply's tokens and content, the user's id and the client address |
| PasswordApi.SetPassword | src/pages/api/private/users/password.ts:42-45 | only the matching user's password changes; every other user and field stays |
| PasswordApi.Handle | src/pages/api/private/users/password.ts:9-56 | the answer is 200, 401, 405 or 500. 405 comes exactly for a signed-in non-PUT. 500 comes exactly when an exception is thrown: no session, no stored user, no current password, or a matching password with no new one or with a failing update. 401 comes exactly when the current password does not match. A matching PUT with a new password whose update succeeds answers 200. Only a 200 changes the store, and then the user's password is the hash of the new one |
| PasswordApi.MatchingPasswordIsStored | src/pages/api/private/users/password.ts:29-47 | a signed-in user's PUT whose current password matches answers 200, and looking the user up by e-mail then finds the same record with the new password's hash |
| PasswordApi.OnlyOwnPasswordChanges | src/pages/api/private/users/password.ts:38-47 | after a 200, exactly the signed-in user's record changed, and only its password |
| Navigation.VisibleItems | src/components/ListItems.tsx:25-159 | the role defaults to STANDARD. The three flow items and the two account items are always shown. The six admin items appear, in order, exactly for ADMIN and POWER |
| Navigation.SelectedOnOwnPage | src/components/ListItems.tsx:30-148 | an item with a link is highlighted on any path that starts with its link |
| Navigation.StandardRoleSeesNoAdminLink | src/components/ListItems.tsx:63 | without the admin section, no admin item is shown or highlighted |
| PromptDisplay.LastNonEmpty | src/pages/chats/index.tsx:168-174 | yields the last non-empty fragment of the list (every later one is empty), and nothing exactly when every fragment is empty |
| PromptDisplay.SpreadAllShape | src/pages/chats/index.tsx:168-174 | spreading the fragments under one description assigns it once, to the last non-empty fragment, or leaves the object unchanged |
| PromptDisplay.ChatDisplay | src/pages/chats/index.tsx:168-174 | empty when the description or every fragment is empty; otherwise the description mapped to the last non-empty fragment |
| PromptDisplay.WithUserInput | src/pages/consultations/new.tsx:154-161 | the user input comes first; the description entry follows it, or replaces it when the description is the user-input key (key order assumes no integer-like key) |
| ChatsPage.ToggleModal | src/pages/chats/index.tsx:132-145 | flips the modal; clears the shown prompts and the log; takes a fresh request id; selects the chat; a blank chat starts with no messages |
| ChatsPage.ToggleForgetsConversation | src/pages/chats/index.tsx:132-145 | toggling keeps nothing of the previous conversation |
| ChatsPage.ChatName | src/pages/chats/index.tsx:192 | the chat name is a prefix of the message of at most 100 characters, the whole message when shorter |
| ChatsPage.History | src/pages/chats/index.tsx:153-155 | each prior message keeps its role and content only |
| ChatsPage.EffectiveRequestId | src/pages/chats/index.tsx:158 | the selected chat's request id when it has one, else the modal's |
| ChatsPage.BuildRequest | src/pages/chats/index.tsx:150-166 | the reduced history followed by the new user message (one longer than the history), plus the effective request id, the five prompts and the retrieval file |
| ChatsPage.AgentLogsNotSent | src/pages/chats/index.tsx:153-155 | histories that agree on roles and contents send the same request |
| ChatsPage.TargetChat | src/pages/chats/index.tsx:203-214 | the selected chat's id when non-zero, else the new chat's; no chat at all throws |
| ChatsPage.Creation | src/pages/chats/index.tsx:190-200 | the creation body is sent exactly for an empty history, named by `ChatName` with the endpoint and the modal's request id |
| ChatsPage.Persist | src/pages/chats/index.tsx:190-214 | a chat is created only for an empty history. It succeeds exactly when the creation (if any), the target chat and both message POSTs succeed. Then both messages go, with the reply's log, to `selectedChat?.id \|\| newChat.id`, and the row the reply's POST answers is shown last |
| ChatsPage.AfterReply | src/pages/chats/index.tsx:183-214 | nothing is created or stored unless the reply has a choice and its usage log succeeded; the shown log is the reply's; success happens exactly when those hold and persisting succeeds, and then the two POSTs and the shown row are `Persist`'s |
| ChatsPage.Submit | src/pages/chats/index.tsx:147-225 | the request is `BuildRequest`'s; the user's message shows at once; the draft is cleared; the shown prompts follow the endpoint; nothing is created or stored unless the endpoint answered and its usage log succeeded; a failure leaves the one new message and shows the toast |
| ChatsPage.SubmitSucceedsIff | src/pages/chats/index.tsx:147-225 | no error toast exactly when the endpoint answered with a choice, the usage log succeeded and persisting succeeded; then both messages go to the target chat and the stored reply row is shown last |
| ChatsPage.FollowUpStaysInChat | src/pages/chats/index.tsx:191-214 | in a chat with history and an id, a successful turn creates nothing and stores both messages under that chat's id, showing the stored reply row |
| ChatsPage.FirstMessageCreatesChat | src/pages/chats/index.tsx:190-212 | the first message of a blank chat creates the chat, selects it and stores both messages in it |
| ChatsPage.NoCreationWithHistory | src/pages/chats/index.tsx:191 | a chat with history is never created again |
| ChatsPage.EmptyOpenedChatIsDuplicated | src/pages/chats/index.tsx:191-209 | an opened chat whose message list is empty gets a second chat created, yet both messages go to the opened one |
| NewConsultation.AllChoices | src/pages/consultations/new.tsx:129 | holds exactly the choices of all the questions |
| NewConsultation.FindChoice | src/pages/consultations/new.tsx:132 | the first choice whose id reads as the pick, or nothing exactly when no id does |
| NewConsultation.ChoicesOf | src/pages/consultations/new.tsx:135 | the question-to-choice object has distinct keys, each a matched choice's question |
| NewConsultation.ChoiceKeysFromPicks | src/pages/consultations/new.tsx:130-136 | a question is a key of the object exactly when some pick matches a choice of that question |
| NewConsultation.SelectedIds | src/pages/consultations/new.tsx:130-131 | the form's picked ids in field order, none without picks |
| NewConsultation.UserInputs | src/pages/consultations/new.tsx:126-141 | the message ends with the free text ("undefined" when absent), and is only that when the form holds no picks |
| NewConsultation.Assemble | src/pages/consultations/new.tsx:126-141 | the loop builds exactly the reference prompt text (with the free text, "undefined" when absent) and the reference object |
| NewConsultation.PromptsOfConcat | src/pages/consultations/new.tsx:131-134 | the prompt text of two runs of picks is the two texts in order |
| NewConsultation.UnmatchedPickIgnored | src/pages/consultations/new.tsx:132-133 | a pick matching no choice changes neither the text nor the object, wherever it occurs |
| NewConsultation.LastPickWins | src/pages/consultations/new.tsx:135 | a question's entry is the last matched pick for it |
| NewConsultation.SelectChoice | src/pages/consultations/new.tsx:65-70 | a press records the pick under the question's field |
| NewConsultation.NoSelectionReachable | src/pages/consultations/new.tsx:79-84 | the empty start is reachable and opens the gate only when there are no questions |
| NewConsultation.SelectChoiceReachable | src/pages/consultations/new.tsx:65-70 | a press on a page question keeps one entry per question field |
| NewConsultation.AllSelectedIffEveryQuestionAnswered | src/pages/consultations/new.tsx:79-84 | for distinct question names, the gate opens exactly when every question has a non-null pick |
| NewConsultation.DuplicateNameBlocksGate | src/pages/consultations/new.tsx:65-84 | when two questions share a name they share one field, so no reachable state opens the gate |
| NewConsultation.ProposalsOf | src/pages/consultations/new.tsx:202-210 | a null reply maps nothing; a `proposals` array maps its elements; anything else throws |
| NewConsultation.AfterCreate | src/pages/consultations/new.tsx:185-212 | after a 200, the success toast shows and the user message goes to the new id with the stored log, followed by the reply exactly when that POST succeeded. Navigation to the new id happens exactly when both POSTs succeeded and the reply parses to null or to a value whose `proposals` is an array, and otherwise the submission aborts. After navigation a null reply issues no proposal POSTs and an array issues one per element, in order |
| NewConsultation.LoggedReply | src/pages/consultations/new.tsx:165-171 | the reply exists exactly when the endpoint answered and its usage log succeeded; it then has a choice |
| NewConsultation.Run | src/pages/consultations/new.tsx:123-216 | the request is the one user message; the shown prompts include the user input; the creation body carries the stringified object and the reply; message posts follow a created record and carry its stored log; no toast means the submission stopped before any message was stored; navigation implies both messages were stored |
| NewConsultation.RunHaltsWithoutReply | src/pages/consultations/new.tsx:163-171 | when the endpoint call or the usage log throws, nothing is posted, no toast shows and the submission aborts |
| NewConsultation.RunPostsReplyBody | src/pages/consultations/new.tsx:173-183 | once the reply is logged, the creation body is built from the picks object, the first choice's content, the endpoint, the reply's log, the request id and the free text |
| NewConsultation.RunAfterCreation | src/pages/consultations/new.tsx:183-215 | a throwing creation POST stops with nothing stored; a non-200 shows the error toast and stores nothing; a 200 continues exactly as `AfterCreate` for the new id, the first choice and the stored log |
| NewConsultation.RunBodyLog | src/pages/consultations/new.tsx:173-183 | the record stores the reply's log when the body sends it under `agentLog`, and nothing when it is sent under `agentLogs` |
| NewConsultation.Submit | src/pages/consultations/new.tsx:173-183 | as written, the consultation record never stores a retrieval log |
| NewConsultation.SubmitCorrected | src/pages/consultations/new.tsx:173-183 | with the key the route reads, the record stores the reply's retrieval log |
| NewConsultation.CreateBodyFields | src/pages/consultations/new.tsx:173-181 | the route reads back the stringified choices and the reply content |
| NewConsultation.CreateBodyLog | src/pages/consultations/new.tsx:178 | the route stores the log when it is sent under `agentLog`, and nothing when it is sent under `agentLogs` |
| NewConsultation.AgentLogLost | src/pages/consultations/new.tsx:173-200 | as written, both stored messages carry no retrieval log |
| NewConsultation.AgentLogKept | src/pages/consultations/new.tsx:173-200 | with the key the route reads, both stored messages carry the reply's log |
| NewConsultation.ChoicesReadBack | src/pages/consultations/new.tsx:175 | the stored `choices` text parses back to the question-to-choice object |
| InterviewsPage.TurnRequest | src/pages/interviews/index.tsx:73-82 | only the text box's message, with no history, request id or retrieval file; all five prompts are the endpoint's |
| InterviewsPage.ReadProposals | src/pages/interviews/index.tsx:106 | a null or unparsable reply throws; an object gives its `proposals` entry, undefined when absent; any other value gives undefined |
| InterviewsPage.CallGpt | src/pages/interviews/index.tsx:68-111 | the shown turn is appended at once, and the shown prompts use the text box. The spinner stays exactly when the turn threw, and then the proposals are reset. The turn completes exactly when the endpoint answered, its usage log succeeded and the reply parses to a non-null value. On success the reply follows the turn, the proposals are the reply's, and the text box is cleared |
| InterviewsPage.ObjectReplyCompletesTurn | src/pages/interviews/index.tsx:95-110 | a logged reply that parses to an object completes the turn: the spinner stops, the proposals are the object's entry, the text box clears, and the shown turn and the reply are appended |
| InterviewsPage.NoHistorySent | src/pages/interviews/index.tsx:73-82 | pages differing only in their conversation send the same request |
| InterviewsPage.ChoiceClickSendsTextBox | src/pages/interviews/index.tsx:70-73 | a choice click shows the choice but sends the text box |
| InterviewsPage.ChoiceButtons | src/pages/interviews/index.tsx:144-148 | one button per element of a `choices` array; any other shape fails to render |
| InterviewsPage.QuestionText | src/pages/interviews/index.tsx:58-66 | the values of a truthy `question` of a truthy reply, else nothing; unparsable text throws |
| InterviewsPage.StringQuestionShownWhole | src/pages/interviews/index.tsx:61-62 | a string question is split into characters that render as the question itself |
| ConsultationsList.PageNumber | src/pages/consultations/index.tsx:28 | the parsed page, or 1 when it is NaN or 0 |
| ConsultationsList.PageCount | src/pages/consultations/index.tsx:92 | the smallest page count holding every consultation at five per page |
| ConsultationsList.CurrentItems | src/pages/consultations/index.tsx:30-33 | at most five items, all from the list; a page in range is the matching non-empty window; a page past the last one is empty |
| ConsultationsList.AllPagesReproduceList | src/pages/consultations/index.tsx:30-33 | pages one to the page count, read in order, are the whole list |
| ConsultationsList.NegativePageCountsFromEnd | src/pages/consultations/index.tsx:28-33 | page -1 shows the second-to-last block of five, counted from the end |
| ConsultationsList.ChipsOf | src/pages/consultations/index.tsx:80-85 | one `key：value` chip per stored entry, in order, then `自由入力：` with the free text exactly when it is non-empty; a `choices` text the flat parser rejects is shown as unreadable |
| ConsultationsList.ChipsShowPicks | src/pages/consultations/index.tsx:80 | a consultation created from picks shows exactly those picks' entries in pick order (for question names that are not integer-like) |
| FlatJson.ParseStringify | src/pages/consultations/index.tsx:80 | parsing a stringified object with distinct keys gives back the same entries in the same order |
| Js.Put | src/pages/consultations/new.tsx:135 | the key reads the new value and other keys are unaffected; a new key is appended, an existing one keeps its place (insertion order; integer-like keys are not ordered as JavaScript orders them) |
| Js.FirstSegment | src/pages/api/private/gpt-logs/index.ts:19 | a comma-free prefix, ending at the first comma or the end |
| Js.Slice | src/pages/consultations/index.tsx:33 | an in-range window is the subsequence; an end past the list runs to its end; negative bounds count back from the end; a start at or past the end gives nothing; the length is bounded by the window; the elements come from the list |
| JsonValue.Prop | src/pages/interviews/index.tsx:61 | property access throws exactly on null; on an object it is defined exactly when the key is present and then reads the first member with that key; on any other value it is undefined |
| JsonValue.Values | src/pages/interviews/index.tsx:62 | `Object.values` of a string gives its characters, of an array its elements, of an object its values, and of a number, boolean or null nothing |

## Left out

- React rendering, MUI styling, the modal, the loading indicator and the typing animation are not modelled. They hold no decision logic.
- The agent-log polling and elapsed-time timers (`src/pages/chats/index.tsx:77-100`, `src/pages/consultations/new.tsx:86-121`) are not modelled. They are time-driven and concurrent.
- axios, Prisma and next-auth are parameters or plain sequences. The user and log stores are sequences, and a session is an optional e-mail.
- bcrypt is a pair of uninterpreted functions; `ulid()`, the clock and `JSON.stringify` of a request are parameters.
- Proxy URL and TLS agent construction are reduced to which agent the client ends up with.
- The CRUD routes and pages (endpoints, questions, choices, users, retrieval files, system parameters, consultations API) are not modelled. They only copy fields. From the consultations route the model keeps only its reading of the log key.
- The endpoint and retrieval-file drop-downs, `fetchChats`, `reset()` of the forms and `ButtonSelect` are UI glue and are not modelled.
- InterviewsPage.CallGpt: `JSON.parse` of a reply is an uninterpreted parameter, so no property depends on the parser. A choice button's label is taken to be a string.
- NewConsultation.Run: the spread of the raw form data into the creation body is not modelled. The route ignores the picks object, and the free text is overwritten with the same value.
- Js.Put: objects keep insertion order for every key. JavaScript lists integer-like keys (such as `"3"`) first, in ascending order, before the others, and the model assumes no key is integer-like. Question names and `primaryPromptDescription` are free text, so the assumption can fail. It affects `choicesJson[questionName] = …` and its `JSON.stringify` (new.tsx:135,175), `Object.entries` in ConsultationsList.ChipsOf and ConsultationsList.ChipsShowPicks (index.tsx:80), and the spread in PromptDisplay.WithUserInput (new.tsx:154-161). For such keys the real order differs from the modelled one.
- NewConsultation.SelectedIds: `Object.values` lists integer-like keys first; question names here are field paths, so insertion order is used.
- ChatsPage.ToggleModal: the messages of an existing chat are what its unawaited fetch eventually stores, a parameter.
- ChatsPage.ChatName and InterviewsPage.QuestionText: strings are sequences of code points, whereas JavaScript's `slice` and `Object.values` work on UTF-16 units. Text outside the Basic Multilingual Plane is split differently.
- ConsultationsList.ChipsOf: the stored text is read with the flat parser, which rejects valid JSON that `JSON.parse` accepts (insignificant whitespace, non-string values such as `{"a":1}`, or `[]`). For those texts the page renders chips and the model reports them as unreadable; only text written by `JSON.stringify` of a string-to-string object is covered.
- FlatJson.ParseStringify: the parser accepts the compact text `JSON.stringify` writes, with any escape, but not insignificant whitespace. It does not read `\u` escapes of surrogates.
- GptRoute.Handle: the 500 body is modelled for the one error the route raises itself. A provider that throws is already caught inside the client.
- PasswordApi.Handle: the route reads the session's e-mail before checking the session. A missing session therefore answers 500, never 401. This is the same ordering as in the usage-log route, but it is not stated as a separate finding.

## Findings

| source | as written | input that shows it | evidently intended | confidence | as-written member | corrected member |
|---|---|---|---|---|---|---|
| src/pages/api/private/gpt-logs/index.ts:10-17 | the user lookup reads `session.user.email` before `if (!session)`, so a missing session throws a TypeError and the 401 reply is unreachable | any request without a session | answer 401 with the authentication message when there is no session | high; not executed | GptLogsApi.Handle, GptLogsApi.NeverUnauthorized | GptLogsApi.HandleChecked |
| src/pages/consultations/new.tsx:178 | the creation body sends the retrieval log as `agentLogs`, but the consultations route reads `agentLog`, so the record's log is always empty and both stored messages carry none | a reply whose `agentLogs` is a non-empty string | send the log under `agentLog`, so the record and both messages keep it | high; not executed | NewConsultation.Submit, NewConsultation.AgentLogLost | NewConsultation.SubmitCorrected, NewConsultation.AgentLogKept |

=== FILE: azure_openai.dfy ===
/** The Azure OpenAI client: deployment and API version come from system
    parameters or the environment, the deployment is part of the base URL,
    the version a query parameter, and the body carries only the messages. */
module AzureOpenAi {
  import opened Js
  import opened Domain
  import SystemParameters

  const ApiVersionPath: string := "/chat/completions?api-version="

  /** `getAzureGptDeployment`. */
  function Deployment(env: Env, lookup: ParameterLookup): (r: Option<string>)
    ensures lookup.Record? && lookup.value != "" ==> r == Some(lookup.value)
    ensures lookup.NoRecord? || lookup == Record("") ==> r == env.azureDeployment
    ensures lookup.LookupFailed? ==> r == None
  {
    SystemParameters.Resolve(lookup, env.azureDeployment)
  }

  /** `getAzureGptVersion`. */
  function Version(env: Env, lookup: ParameterLookup): (r: Option<string>)
    ensures lookup.Record? && lookup.value != "" ==> r == Some(lookup.value)
    ensures lookup.NoRecord? || lookup == Record("") ==> r == env.azureVersion
    ensures lookup.LookupFailed? ==> r == None
  {
    SystemParameters.Resolve(lookup, env.azureVersion)
  }

  /** The `httpsAgent` entries of the options object in source order: the
      proxy agent spread in when proxy mode is on, then the explicit
      certificate-ignoring agent. */
  function AgentOptions(env: Env): Obj<Agent> {
    var spread: Obj<Agent> := if UseProxy(env) then Put([], "httpsAgent", ProxyAgent) else [];
    Put(spread, "httpsAgent", InsecureAgent)
  }

  datatype ClientConfig = ClientConfig(baseUrl: string, auth: Auth, agent: Agent)

  /** `createAxiosInstance`. */
  function CreateClient(env: Env, deploymentLookup: ParameterLookup): (r: ClientConfig)
    ensures r.baseUrl == Template(env.azureEndpoint) + "/" + Template(Deployment(env, deploymentLookup))
    ensures r.auth == ApiKey(Template(env.azureApiKey))
  {
    ClientConfig(Template(env.azureEndpoint) + "/" + Template(Deployment(env, deploymentLookup)),
                 ApiKey(Template(env.azureApiKey)),
                 Get(AgentOptions(env), "httpsAgent").GetOr(NoAgent))
  }

  /** The later `httpsAgent` key overrides the spread one, so the client
      never uses the proxy agent and always skips certificate checks. */
  lemma AgentAlwaysInsecure(env: Env, deploymentLookup: ParameterLookup)
    ensures CreateClient(env, deploymentLookup).agent == InsecureAgent
    ensures |AgentOptions(env)| == 1
  {
  }

  /** The POST Azure's `openaiCompletion` issues, or `None` when building
      its body throws. */
  function Request(env: Env, deploymentLookup: ParameterLookup, versionLookup: ParameterLookup,
                   systemPrompts: Option<seq<Message>>, conversations: Option<seq<Message>>)
    : (r: Option<ProviderPost>)
    ensures r.Some? <==> conversations.Some?
    ensures r.Some? ==> r.value.path == ApiVersionPath + Template(Version(env, versionLookup))
    ensures r.Some? ==> r.value.baseUrl == CreateClient(env, deploymentLookup).baseUrl
    ensures r.Some? ==> r.value.model.None?
    ensures r.Some? ==> r.value.agent == InsecureAgent && r.value.auth == ApiKey(Template(env.azureApiKey))
    ensures r.Some? ==> Some(r.value.messages) == OutboundMessages(systemPrompts, conversations)
  {
    var client := CreateClient(env, deploymentLookup);
    AgentAlwaysInsecure(env, deploymentLookup);
    match OutboundMessages(systemPrompts, conversations)
    case None => None
    case Some(ms) =>
      Some(ProviderPost(client.baseUrl, ApiVersionPath + Template(Version(env, versionLookup)),
                        client.auth, client.agent, None, ms))
  }

  /** Azure's `openaiCompletion`: a throwing request is logged and yields
      `undefined`. */
  function Completion(env: Env, deploymentLookup: ParameterLookup, versionLookup: ParameterLookup,
                      systemPrompts: Option<seq<Message>>, conversations: Option<seq<Message>>,
                      send: Transport): (r: Option<ProviderResponse>)
    ensures conversations.None? ==> r.None?
    ensures r.Some? ==> Request(env, deploymentLookup, versionLookup, systemPrompts, conversations).Some?
    ensures r.Some? ==>
      send(Request(env, deploymentLookup, versionLookup, systemPrompts, conversations).value) == r
    ensures conversations.Some? ==>
      r == send(Request(env, deploymentLookup, versionLookup, systemPrompts, conversations).value)
  {
    match Request(env, deploymentLookup, versionLookup, systemPrompts, conversations)
    case None => None
    case Some(p) => send(p)
  }
}

=== FILE: chats_page.dfy ===
/** The free-chat page: opening a chat, and one submission, which sends the
    whole history plus the new message to the selected endpoint, logs the
    exchange, creates the chat on its first message and stores both
    messages. Every network call is a parameter. */
module ChatsPage {
  import opened Js
  import opened Domain
  import PromptDisplay
  import GptLogging

  const UseCase: string := "フリーチャット"
  const MaxNameLength: nat := 100

  datatype Chat = Chat(id: int, requestId: Option<string>, name: string)

  /** The page state the handlers touch. `draft` is the text box. */
  datatype ChatPage = ChatPage(
    isOpen: bool,
    selectedChat: Option<Chat>,
    messages: seq<StoredMessage>,
    draft: string,
    requestId: string,
    displayPrompts: Obj<string>,
    logContent: Option<string>)

  /** The body of the chat-creation POST. */
  datatype NewChat = NewChat(name: string, apiEndpointId: int, requestId: string)

  /** The calls a submission makes, each answering `None` when it throws:
      the endpoint, `JSON.stringify` of the request, the clock readings
      around the endpoint call, the usage-log POST, chat creation and the
      message POST (which answers the stored row). */
  datatype ChatIo = ChatIo(
    callEndpoint: (string, EndpointRequest) -> Option<GptReply>,
    stringify: EndpointRequest -> string,
    startedAt: int,
    endedAt: int,
    postLog: GptLogging.GptLogPayload -> bool,
    createChat: NewChat -> Option<Chat>,
    postMessage: (int, StoredMessage) -> Option<StoredMessage>)

  /** What a submission did: the final page state, the request it built,
      the chat-creation body it posted (if any), the message POSTs it
      issued, and whether it ended in the error toast. */
  datatype Submission = Submission(
    page: ChatPage,
    request: EndpointRequest,
    created: Option<NewChat>,
    posts: seq<(int, StoredMessage)>,
    errorToast: bool)

  /** Opening a chat (or a blank one) and closing the modal. `freshId` is the
      new `ulid()`, and `loaded` the messages the unawaited fetch eventually
      stores for an existing chat. */
  function ToggleModal(page: ChatPage, chat: Option<Chat>, freshId: string, loaded: seq<StoredMessage>)
    : (r: ChatPage)
    ensures r.isOpen == !page.isOpen
    ensures r.displayPrompts == [] && r.logContent == Some("")
    ensures r.requestId == freshId && r.selectedChat == chat
    ensures chat.None? ==> r.messages == []
    ensures r.draft == page.draft
  {
    page.(isOpen := !page.isOpen, selectedChat := chat, messages := if chat.Some? then loaded else [],
          requestId := freshId, displayPrompts := [], logContent := Some(""))
  }

  /** Toggling keeps nothing of the previous conversation: two pages that
      differ in anything but the draft and the open flag toggle to the same
      state. */
  lemma ToggleForgetsConversation(p: ChatPage, q: ChatPage, chat: Option<Chat>, freshId: string,
                                  loaded: seq<StoredMessage>)
    requires p.isOpen == q.isOpen && p.draft == q.draft
    ensures ToggleModal(p, chat, freshId, loaded) == ToggleModal(q, chat, freshId, loaded)
  {
  }

  /** `message.slice(0, 100)`. */
  function ChatName(message: string): (r: string)
    ensures |r| <= MaxNameLength && r <= message
    ensures |message| <= MaxNameLength ==> r == message
  {
    Slice(message, 0, MaxNameLength as int)
  }

  /** `{ role, content }`: the stored log is not sent back. */
  function History(messages: seq<StoredMessage>): (r: seq<Message>)
    ensures |r| == |messages|
    ensures forall i :: 0 <= i < |r| ==> r[i] == Message(messages[i].role, messages[i].content)
  {
    seq(|messages|, i requires 0 <= i < |messages| => Message(messages[i].role, messages[i].content))
  }

  /** `selectedChat?.requestId || requestId`. */
  function EffectiveRequestId(page: ChatPage): (r: string)
    ensures page.selectedChat.Some? && Truthy(page.selectedChat.value.requestId) ==>
      r == page.selectedChat.value.requestId.value
    ensures page.selectedChat.None? || !Truthy(page.selectedChat.value.requestId) ==> r == page.requestId
  {
    match page.selectedChat
    case Some(c) => OrEmpty(Or(c.requestId, Some(page.requestId)))
    case None => page.requestId
  }

  /** The request a submission posts: the history reduced to role and
      content, then the new user message, with the endpoint's five prompts. */
  function BuildRequest(page: ChatPage, ep: ApiEndpoint, ragFileName: Option<string>): (r: EndpointRequest)
    ensures |r.messages| == |page.messages| + 1
    ensures r.messages[..|page.messages|] == History(page.messages)
    ensures r.messages[|page.messages|] == Message(User, page.draft)
    ensures r.requestId == Some(EffectiveRequestId(page))
    ensures r.primaryPrompt == ep.primaryPrompt && r.secondaryPrompt == ep.secondaryPrompt
      && r.tertiaryPrompt == ep.tertiaryPrompt && r.quaternaryPrompt == ep.quaternaryPrompt
      && r.quinaryPrompt == ep.quinaryPrompt
    ensures r.ragFileName == ragFileName
  {
    var messages := History(page.messages) + [Message(User, page.draft)];
    assert messages[..|page.messages|] == History(page.messages);
    RequestFor(ep, Some(EffectiveRequestId(page)), messages, ragFileName)
  }

  /** Stored backend logs never reach the endpoint: two histories that agree
      on every role and content give the same request. */
  lemma {:induction false} AgentLogsNotSent(p: ChatPage, q: ChatPage, ep: ApiEndpoint, ragFileName: Option<string>)
    requires p.draft == q.draft && EffectiveRequestId(p) == EffectiveRequestId(q)
    requires |p.messages| == |q.messages|
    requires forall i :: 0 <= i < |p.messages| ==>
      p.messages[i].role == q.messages[i].role && p.messages[i].content == q.messages[i].content
    ensures BuildRequest(p, ep, ragFileName) == BuildRequest(q, ep, ragFileName)
  {
    assert History(p.messages) == History(q.messages);
  }

  /** `selectedChat?.id || newChat.id`; reading `id` of a null new chat
      throws. */
  function TargetChat(selected: Option<Chat>, newChat: Option<Chat>): (r: Option<int>)
    ensures selected.Some? && selected.value.id != 0 ==> r == Some(selected.value.id)
    ensures (selected.None? || selected.value.id == 0) ==>
      (r.Some? <==> newChat.Some?) && (r.Some? ==> r.value == newChat.value.id)
  {
    if selected.Some? && selected.value.id != 0 then Some(selected.value.id)
    else if newChat.Some? then Some(newChat.value.id)
    else None
  }

  /** The `finally` block: the text box is cleared. */
  function Finish(page: ChatPage): ChatPage {
    page.(draft := "")
  }

  /** The catch: the state reached so far, with the error toast. */
  function Fail(page: ChatPage, request: EndpointRequest, created: Option<NewChat>,
                posts: seq<(int, StoredMessage)>): Submission {
    Submission(Finish(page), request, created, posts, true)
  }

  /** The body of the chat-creation POST: sent only when the history is
      empty. */
  function Creation(page: ChatPage, ep: ApiEndpoint): (r: Option<NewChat>)
    ensures r.Some? <==> |page.messages| == 0
    ensures r.Some? ==> r.value == NewChat(ChatName(page.draft), ep.id, page.requestId)
  {
    if |page.messages| == 0 then Some(NewChat(ChatName(page.draft), ep.id, page.requestId)) else None
  }

  /** The chat that POST answers, `None` when none was created. */
  function NewChatFor(page: ChatPage, ep: ApiEndpoint, io: ChatIo): Option<Chat> {
    if Creation(page, ep).Some? then io.createChat(Creation(page, ep).value) else None
  }

  /** Whether persisting reaches the end: the creation POST (if any), the
      target chat and both message POSTs all succeed. */
  predicate PersistSucceeds(page: ChatPage, reply: Message, agentLog: Option<string>, ep: ApiEndpoint,
                            io: ChatIo) {
    var target := TargetChat(page.selectedChat, NewChatFor(page, ep, io));
    && (Creation(page, ep).Some? ==> NewChatFor(page, ep, io).Some?)
    && target.Some?
    && io.postMessage(target.value, StoredMessage(User, page.draft, agentLog)).Some?
    && io.postMessage(target.value, StoredMessage(reply.role, reply.content, agentLog)).Some?
  }

  /** Everything after the usage log succeeded: create the chat when the
      history was empty, then store the user message and the reply. */
  function Persist(page: ChatPage, shown: ChatPage, request: EndpointRequest, reply: Message,
                   agentLog: Option<string>, ep: ApiEndpoint, io: ChatIo): (r: Submission)
    ensures r.request == request && r.page.draft == ""
    ensures r.page.displayPrompts == shown.displayPrompts && r.page.logContent == shown.logContent
    ensures r.errorToast ==> r.page.messages == shown.messages
    ensures !r.errorToast ==>
      |r.page.messages| == |shown.messages| + 1 && r.page.messages[..|shown.messages|] == shown.messages
    ensures r.created.Some? ==>
      && |page.messages| == 0
      && r.created.value.name == ChatName(page.draft)
      && r.created.value.requestId == page.requestId
    ensures !r.errorToast ==>
      && |r.posts| == 2
      && r.posts[0].0 == r.posts[1].0
      && r.posts[0].1 == StoredMessage(User, page.draft, agentLog)
      && r.posts[1].1 == StoredMessage(reply.role, reply.content, agentLog)
    ensures !r.errorToast <==> PersistSucceeds(page, reply, agentLog, ep, io)
    ensures !r.errorToast ==>
      && Some(r.posts[0].0) == TargetChat(page.selectedChat, NewChatFor(page, ep, io))
      && r.page.messages[|shown.messages|] == io.postMessage(r.posts[1].0, r.posts[1].1).value
      && r.page.selectedChat == if r.created.Some? then NewChatFor(page, ep, io) else shown.selectedChat
  {
    var creation := Creation(page, ep);
    var newChat := NewChatFor(page, ep, io);
    if creation.Some? && newChat.None? then Fail(shown, request, creation, [])
    else
      var state := if newChat.Some? then shown.(selectedChat := newChat) else shown;
      match TargetChat(page.selectedChat, newChat)
      case None => Fail(state, request, creation, [])
      case Some(id) =>
        var userBody := StoredMessage(User, page.draft, agentLog);
        var replyBody := StoredMessage(reply.role, reply.content, agentLog);
        match io.postMessage(id, userBody)
        case None => Fail(state, request, creation, [(id, userBody)])
        case Some(_) =>
          match io.postMessage(id, replyBody)
          case None => Fail(state, request, creation, [(id, userBody), (id, replyBody)])
          case Some(row) =>
            var messages := state.messages + [row];
            assert messages[..|shown.messages|] == shown.messages;
            Submission(Finish(state.(messages := messages)), request, creation,
                       [(id, userBody), (id, replyBody)], false)
  }

  /** Whether the usage log of a reply went through. */
  predicate LogSucceeded(page: ChatPage, ep: ApiEndpoint, ragFileName: Option<string>, vendor: string,
                         io: ChatIo, reply: GptReply) {
    GptLogging.LogGptData(reply, io.stringify(BuildRequest(page, ep, ragFileName)), io.startedAt,
                          io.endedAt, vendor, UseCase, ep.name, io.postLog).Logged?
  }

  /** Everything after the endpoint answered: read the first choice, log
      the exchange, then persist. */
  function AfterReply(page: ChatPage, shown: ChatPage, request: EndpointRequest, reply: GptReply,
                      ep: ApiEndpoint, ragFileName: Option<string>, vendor: string, io: ChatIo)
    : (r: Submission)
    ensures r.request == request && r.page.draft == ""
    ensures r.page.displayPrompts == shown.displayPrompts
    ensures r.created.Some? ==>
      && |page.messages| == 0
      && r.created.value.name == ChatName(page.draft)
      && r.created.value.requestId == page.requestId
    ensures (r.created.Some? || r.posts != []) ==>
      && |reply.data.choices| > 0
      && LogSucceeded(page, ep, ragFileName, vendor, io, reply)
      && r.page.logContent == reply.data.agentLogs
    ensures r.errorToast ==> r.page.messages == shown.messages
    ensures !r.errorToast ==>
      && |reply.data.choices| > 0
      && |r.posts| == 2
      && r.posts[0].0 == r.posts[1].0
      && r.posts[0].1 == StoredMessage(User, page.draft, reply.data.agentLogs)
      && r.posts[1].1 == StoredMessage(reply.data.choices[0].role, reply.data.choices[0].content,
                                     reply.data.agentLogs)
      && |r.page.messages| == |shown.messages| + 1
      && r.page.messages[..|shown.messages|] == shown.messages
    ensures !r.errorToast <==>
      && |reply.data.choices| > 0
      && LogSucceeded(page, ep, ragFileName, vendor, io, reply)
      && PersistSucceeds(page, reply.data.choices[0], reply.data.agentLogs, ep, io)
    ensures !r.errorToast ==>
      && Some(r.posts[0].0) == TargetChat(page.selectedChat, NewChatFor(page, ep, io))
      && r.page.messages[|shown.messages|] == io.postMessage(r.posts[1].0, r.posts[1].1).value
  {
    if |reply.data.choices| == 0 then Fail(shown, request, None, [])
    else
      var logged := shown.(logContent := reply.data.agentLogs);
      if !LogSucceeded(page, ep, ragFileName, vendor, io, reply) then Fail(logged, request, None, [])
      else Persist(page, logged, request, reply.data.choices[0], reply.data.agentLogs, ep, io)
  }

  /** `onSubmit`. */
  function Submit(page: ChatPage, ep: ApiEndpoint, ragFileName: Option<string>, vendor: string,
                  io: ChatIo): (r: Submission)
    ensures r.request == BuildRequest(page, ep, ragFileName)
    ensures r.page.draft == ""
    ensures r.page.displayPrompts == PromptDisplay.ChatDisplay(ep)
    ensures |r.page.messages| >= |page.messages| + 1
    ensures r.page.messages[..|page.messages| + 1] == page.messages + [StoredMessage(User, page.draft, None)]
    ensures r.created.Some? ==>
      && |page.messages| == 0
      && r.created.value.name == ChatName(page.draft)
      && r.created.value.requestId == page.requestId
    ensures (r.created.Some? || r.posts != []) ==>
      var reply := io.callEndpoint(ep.url, r.request);
      reply.Some? && |reply.value.data.choices| > 0
      && LogSucceeded(page, ep, ragFileName, vendor, io, reply.value)
      && r.page.logContent == reply.value.data.agentLogs
    ensures !r.errorToast ==>
      var reply := io.callEndpoint(ep.url, r.request);
      && reply.Some?
      && |r.posts| == 2
      && r.posts[0].0 == r.posts[1].0
      && r.posts[0].1 == StoredMessage(User, page.draft, reply.value.data.agentLogs)
      && r.posts[1].1 == StoredMessage(reply.value.data.choices[0].role, reply.value.data.choices[0].content,
                                     reply.value.data.agentLogs)
      && |r.page.messages| == |page.messages| + 2
    ensures r.errorToast ==> r.page.messages == page.messages + [StoredMessage(User, page.draft, None)]
  {
    var request := BuildRequest(page, ep, ragFileName);
    assert (page.messages + [StoredMessage(User, page.draft, None)])[..|page.messages| + 1]
      == page.messages + [StoredMessage(User, page.draft, None)];
    var shown := page.(messages := page.messages + [StoredMessage(User, page.draft, None)],
                       displayPrompts := PromptDisplay.ChatDisplay(ep));
    match io.callEndpoint(ep.url, request)
    case None => Fail(shown, request, None, [])
    case Some(reply) => AfterReply(page, shown, request, reply, ep, ragFileName, vendor, io)
  }

  /** A submission ends without the error toast exactly when the endpoint
      answers with a choice, the usage log goes through and persisting
      succeeds; then both messages go to the target chat and the row the
      reply's POST answers is shown last. */
  lemma SubmitSucceedsIff(page: ChatPage, ep: ApiEndpoint, ragFileName: Option<string>, vendor: string,
                          io: ChatIo)
    ensures var r := Submit(page, ep, ragFileName, vendor, io);
      && (!r.errorToast <==>
            var reply := io.callEndpoint(ep.url, r.request);
            && reply.Some? && |reply.value.data.choices| > 0
            && LogSucceeded(page, ep, ragFileName, vendor, io, reply.value)
            && PersistSucceeds(page, reply.value.data.choices[0], reply.value.data.agentLogs, ep, io))
      && (!r.errorToast ==>
            && Some(r.posts[0].0) == TargetChat(page.selectedChat, NewChatFor(page, ep, io))
            && r.page.messages[|page.messages| + 1] == io.postMessage(r.posts[1].0, r.posts[1].1).value)
  {
  }

  /** A further message in a chat that has history and an id stores both
      messages under that chat's id, creates nothing, and shows the stored
      reply row last. */
  lemma FollowUpStaysInChat(page: ChatPage, ep: ApiEndpoint, ragFileName: Option<string>,
                            vendor: string, io: ChatIo)
    requires page.messages != [] && page.selectedChat.Some? && page.selectedChat.value.id != 0
    requires var reply := io.callEndpoint(ep.url, BuildRequest(page, ep, ragFileName));
      reply.Some? && |reply.value.data.choices| > 0 && LogSucceeded(page, ep, ragFileName, vendor, io, reply.value)
    requires forall id, m :: io.postMessage(id, m).Some?
    ensures var r := Submit(page, ep, ragFileName, vendor, io);
      && !r.errorToast && r.created.None?
      && r.posts[0].0 == page.selectedChat.value.id && r.posts[1].0 == page.selectedChat.value.id
      && r.page.selectedChat == page.selectedChat
      && r.page.messages[|page.messages| + 1] == io.postMessage(r.posts[1].0, r.posts[1].1).value
  {
    SubmitSucceedsIff(page, ep, ragFileName, vendor, io);
  }

  /** A first message on a blank chat creates the chat and stores both
      messages in it. */
  lemma FirstMessageCreatesChat(page: ChatPage, ep: ApiEndpoint, ragFileName: Option<string>,
                                vendor: string, io: ChatIo, chat: Chat)
    requires page.messages == [] && page.selectedChat.None?
    requires var reply := io.callEndpoint(ep.url, BuildRequest(page, ep, ragFileName));
      reply.Some? && |reply.value.data.choices| > 0 && LogSucceeded(page, ep, ragFileName, vendor, io, reply.value)
    requires io.createChat(NewChat(ChatName(page.draft), ep.id, page.requestId)) == Some(chat)
    requires forall id, m :: io.postMessage(id, m).Some?
    ensures var r := Submit(page, ep, ragFileName, vendor, io);
      && !r.errorToast
      && r.created == Some(NewChat(ChatName(page.draft), ep.id, page.requestId))
      && r.page.selectedChat == Some(chat)
      && r.posts[0].0 == chat.id && r.posts[1].0 == chat.id
  {
  }

  /** A chat that already has messages is never created again. */
  lemma NoCreationWithHistory(page: ChatPage, ep: ApiEndpoint, ragFileName: Option<string>,
                              vendor: string, io: ChatIo)
    requires page.messages != []
    ensures Submit(page, ep, ragFileName, vendor, io).created.None?
  {
  }

  /** An existing chat opened while its message list is empty (the fetch
      has not landed, or it has none) is treated as new: a second chat is
      created, yet both messages are stored in the opened one. */
  lemma EmptyOpenedChatIsDuplicated(page: ChatPage, ep: ApiEndpoint, ragFileName: Option<string>,
                                    vendor: string, io: ChatIo, chat: Chat)
    requires page.messages == [] && page.selectedChat.Some? && page.selectedChat.value.id != 0
    requires var reply := io.callEndpoint(ep.url, BuildRequest(page, ep, ragFileName));
      reply.Some? && |reply.value.data.choices| > 0 && LogSucceeded(page, ep, ragFileName, vendor, io, reply.value)
    requires io.createChat(NewChat(ChatName(page.draft), ep.id, page.requestId)) == Some(chat)
    requires forall id, m :: io.postMessage(id, m).Some?
    ensures var r := Submit(page, ep, ragFileName, vendor, io);
      && !r.errorToast && r.created.Some?
      && r.posts[0].0 == page.selectedChat.value.id
  {
  }
}

=== FILE: consultations_list.dfy ===
/** The consultation list: five consultations per page, the page number
    taken from the query string, and per consultation the chips showing
    the stored choices and the free text. */
module ConsultationsList {
  import opened Js
  import FlatJson
  import Domain
  import NewConsultation

  const ItemsPerPage: nat := 5
  const DetailLabel: string := "自由入力："
  const Separator: string := "："

  /** `parseInt(router.query.page) || 1`: `None` stands for NaN. */
  function PageNumber(parsed: Option<int>): (r: int)
    ensures r != 0
    ensures parsed.None? || parsed == Some(0) ==> r == 1
    ensures parsed.Some? && parsed.value != 0 ==> r == parsed.value
  {
    match parsed
    case Some(p) => if p != 0 then p else 1
    case None => 1
  }

  /** `Math.ceil(n / itemsPerPage)`. */
  function PageCount(n: nat): (r: nat)
    ensures (r - 1) * ItemsPerPage < n <= r * ItemsPerPage || (n == 0 && r == 0)
  {
    (n + ItemsPerPage - 1) / ItemsPerPage
  }

  /** `consultations.slice((page - 1) * 5, page * 5)`. */
  function CurrentItems<T>(items: seq<T>, page: int): (r: seq<T>)
    ensures |r| <= ItemsPerPage
    ensures 1 <= page <= PageCount(|items|) ==>
      && r == items[(page - 1) * ItemsPerPage .. if page * ItemsPerPage <= |items| then page * ItemsPerPage else |items|]
      && r != []
    ensures page > PageCount(|items|) ==> r == []
    ensures forall x :: x in r ==> x in items
  {
    var start, end := page * ItemsPerPage - ItemsPerPage, page * ItemsPerPage;
    assert start < 0 || end >= 0;
    var r := Slice(items, start, end);
    r
  }

  /** Pages `1` to `k` one after the other. */
  function Pages<T>(items: seq<T>, k: nat): seq<T> {
    if k == 0 then [] else Pages(items, k - 1) + CurrentItems(items, k)
  }

  lemma {:induction false} PagesPrefix<T>(items: seq<T>, k: nat)
    requires k <= PageCount(|items|)
    ensures Pages(items, k) == items[..if k * ItemsPerPage <= |items| then k * ItemsPerPage else |items|]
  {
    if k > 0 {
      PagesPrefix(items, k - 1);
      var lo := (k - 1) * ItemsPerPage;
      var hi := if k * ItemsPerPage <= |items| then k * ItemsPerPage else |items|;
      assert items[..lo] + items[lo..hi] == items[..hi];
    }
  }

  /** Reading every page in order gives back the whole list, each
      consultation once. */
  lemma AllPagesReproduceList<T>(items: seq<T>)
    ensures Pages(items, PageCount(|items|)) == items
  {
    PagesPrefix(items, PageCount(|items|));
  }

  /** A negative page number in the query counts from the end of the list,
      as `slice` does with negative indices. */
  lemma NegativePageCountsFromEnd<T>(items: seq<T>)
    requires |items| >= 2 * ItemsPerPage
    ensures CurrentItems(items, -1) == items[|items| - 2 * ItemsPerPage .. |items| - ItemsPerPage]
  {
  }

  /** A listed consultation: the stored `choices` text and free text. */
  datatype Consultation = Consultation(choices: string, detail: Option<string>)

  /** The chips of one consultation, or a rendering failure when `choices`
      does not parse. */
  datatype ChipsView = Unreadable | Chips(labels: seq<string>)

  /** `${key}：${value}` for each entry. */
  function EntryLabels(o: Obj<string>): (r: seq<string>)
    ensures |r| == |o|
    ensures forall i :: 0 <= i < |o| ==> r[i] == o[i].0 + Separator + o[i].1
  {
    seq(|o|, i requires 0 <= i < |o| => o[i].0 + Separator + o[i].1)
  }

  /** The chips: one per stored choice, in stored order, then the free-text
      chip when the free text is non-empty. */
  function ChipsOf(c: Consultation): (r: ChipsView)
    ensures r.Chips? <==> FlatJson.Parse(c.choices).Some?
    ensures r.Chips? ==> |r.labels| >= |FlatJson.Parse(c.choices).value|
    ensures r.Chips? ==> r.labels[..|FlatJson.Parse(c.choices).value|] == EntryLabels(FlatJson.Parse(c.choices).value)
    ensures r.Chips? && Truthy(c.detail) ==>
      |r.labels| == |FlatJson.Parse(c.choices).value| + 1 && r.labels[|r.labels| - 1] == DetailLabel + c.detail.value
    ensures r.Chips? && !Truthy(c.detail) ==> |r.labels| == |FlatJson.Parse(c.choices).value|
  {
    match FlatJson.Parse(c.choices)
    case None => Unreadable
    case Some(o) =>
      var labels := EntryLabels(o) + if Truthy(c.detail) then [DetailLabel + c.detail.value] else [];
      assert labels[..|o|] == EntryLabels(o);
      Chips(labels)
  }

  /** A `choices` text written by `JSON.stringify` shows one chip per
      entry, in the order written. */
  lemma StoredChoicesShown(o: Obj<string>, detail: Option<string>)
    requires UniqueKeys(o)
    ensures FlatJson.Parse(FlatJson.Stringify(o)) == Some(o)
    ensures ChipsOf(Consultation(FlatJson.Stringify(o), detail)).Chips?
    ensures ChipsOf(Consultation(FlatJson.Stringify(o), detail)).labels[..|o|] == EntryLabels(o)
  {
    FlatJson.ParseStringify(o);
  }

  /** A consultation created from some picks lists exactly those picks'
      question-to-choice entries, in the order the picks made them. */
  lemma ChipsShowPicks(logKey: string, qs: seq<NewConsultation.Question>, selected: Option<Obj<string>>,
                       content: string, ep: Domain.ApiEndpoint, agentLogs: Option<string>, requestId: string,
                       detail: Option<string>)
    requires logKey == NewConsultation.SentLogKey || logKey == NewConsultation.ReadLogKey
    ensures var choicesJson := NewConsultation.ChoicesOf(NewConsultation.AllChoices(qs), NewConsultation.SelectedIds(selected));
      var body := NewConsultation.CreateBody(logKey, choicesJson, content, ep, agentLogs, requestId, detail);
      var view := ChipsOf(Consultation(NewConsultation.ReadText(body, "choices").GetOr(""), detail));
      && view.Chips?
      && |view.labels| >= |choicesJson|
      && view.labels[..|choicesJson|] == EntryLabels(choicesJson)
  {
    var choicesJson := NewConsultation.ChoicesOf(NewConsultation.AllChoices(qs), NewConsultation.SelectedIds(selected));
    NewConsultation.CreateBodyFields(logKey, choicesJson, content, ep, agentLogs, requestId, detail);
    var body := NewConsultation.CreateBody(logKey, choicesJson, content, ep, agentLogs, requestId, detail);
    var stored := NewConsultation.ReadText(body, "choices").GetOr("");
    assert stored == FlatJson.Stringify(choicesJson);
    StoredChoicesShown(choicesJson, detail);
  }
}

=== FILE: domain.dfy ===
/** The records the orchestration layer passes around: chat messages, the
    endpoint configuration with its five prompt fragments, the provider's
    completion, the outbound HTTP request, the deployment environment and
    the user store. */
module Domain {
  import opened Js

  datatype Role = System | User | Assistant

  /** A chat message as the provider receives it. */
  datatype Message = Message(role: Role, content: string)

  /** A configured endpoint: where requests go and its prompt fragments.
      Every prompt column may be null. */
  datatype ApiEndpoint = ApiEndpoint(
    id: int,
    name: string,
    url: string,
    useRag: bool,
    primaryPromptDescription: Option<string>,
    primaryPrompt: Option<string>,
    secondaryPrompt: Option<string>,
    tertiaryPrompt: Option<string>,
    quaternaryPrompt: Option<string>,
    quinaryPrompt: Option<string>)

  /** A message as the pages store it: the retrieval backend's log rides
      along with each stored message. */
  datatype StoredMessage = StoredMessage(role: Role, content: string, agentLog: Option<string>)

  /** The body a page posts to an endpoint's URL: an optional request id
      (used to name the retrieval log), the messages, the endpoint's five
      prompt fragments and, on the chat page, the retrieval file. */
  datatype EndpointRequest = EndpointRequest(
    requestId: Option<string>,
    messages: seq<Message>,
    primaryPrompt: Option<string>,
    secondaryPrompt: Option<string>,
    tertiaryPrompt: Option<string>,
    quaternaryPrompt: Option<string>,
    quinaryPrompt: Option<string>,
    ragFileName: Option<string>)

  /** A request carrying `ep`'s five prompt fragments. */
  function RequestFor(ep: ApiEndpoint, requestId: Option<string>, messages: seq<Message>,
                      ragFileName: Option<string>): EndpointRequest {
    EndpointRequest(requestId, messages, ep.primaryPrompt, ep.secondaryPrompt, ep.tertiaryPrompt,
                    ep.quaternaryPrompt, ep.quinaryPrompt, ragFileName)
  }

  datatype Usage = Usage(promptTokens: int, completionTokens: int, totalTokens: int)

  /** The body of a chat-completion response; `agentLogs` is only sent by
      the retrieval backend some endpoints point at, and `usage` may be
      missing from a backend's reply. */
  datatype CompletionData = CompletionData(
    model: string,
    choices: seq<Message>,
    usage: Option<Usage>,
    agentLogs: Option<string>)

  /** What a page receives from an endpoint: the completion, plus the
      index-keyed system prompts when the dispatch route answered. */
  datatype GptReply = GptReply(data: CompletionData, totalPrompts: Option<seq<string>>)

  /** The `httpsAgent` an HTTP client is configured with. */
  datatype Agent = NoAgent | ProxyAgent | InsecureAgent

  datatype Auth = Bearer(key: string) | ApiKey(key: string)

  /** A POST to a provider: base URL, path, credentials, agent and the JSON
      body's `model` (absent when undefined) and `messages`. */
  datatype ProviderPost = ProviderPost(
    baseUrl: string,
    path: string,
    auth: Auth,
    agent: Agent,
    model: Option<string>,
    messages: seq<Message>)

  /** The HTTP response of a provider call; `data` is its parsed body. */
  datatype ProviderResponse = ProviderResponse(data: Option<CompletionData>)

  /** A provider transport: the response, or `None` when the request throws
      (network failure or non-2xx status). */
  type Transport = ProviderPost -> Option<ProviderResponse>

  /** The process environment variables the server code reads. */
  datatype Env = Env(
    gptVendor: Option<string>,
    useProxy: Option<string>,
    openAiApiKey: Option<string>,
    openAiModelName: Option<string>,
    azureEndpoint: Option<string>,
    azureApiKey: Option<string>,
    azureDeployment: Option<string>,
    azureVersion: Option<string>)

  /** `process.env.USE_PROXY === 'true'`. */
  predicate UseProxy(env: Env) {
    env.useProxy == Some("true")
  }

  /** The outcome of one `systemParameter.findUnique` by key. */
  datatype ParameterLookup = LookupFailed | NoRecord | Record(value: string)

  /** A user row; `password` holds a bcrypt hash. */
  datatype UserRecord = UserRecord(id: int, email: string, name: string, role: string, password: string)

  /** The session a request carries, if any. */
  datatype Session = Session(email: string)

  /** `user.findUnique({ where: { email } })`: e-mail is a unique column, so
      the first match is the only one. */
  function FindByEmail(users: seq<UserRecord>, email: string): (r: Option<UserRecord>)
    ensures r.Some? ==> r.value in users && r.value.email == email
    ensures r.None? ==> forall u :: u in users ==> u.email != email
  {
    if users == [] then None
    else if users[0].email == email then Some(users[0])
    else FindByEmail(users[1..], email)
  }

  /** `[...(systemPrompts || []), ...conversations]`, which both provider
      clients send; spreading a missing `conversations` throws. */
  function OutboundMessages(systemPrompts: Option<seq<Message>>, conversations: Option<seq<Message>>)
    : (r: Option<seq<Message>>)
    ensures r.Some? <==> conversations.Some?
    ensures r.Some? ==> |r.value| == |systemPrompts.GetOr([])| + |conversations.value|
    ensures r.Some? ==> r.value[..|systemPrompts.GetOr([])|] == systemPrompts.GetOr([])
    ensures r.Some? ==> r.value[|systemPrompts.GetOr([])|..] == conversations.value
  {
    match conversations
    case None => None
    case Some(c) => Some(systemPrompts.GetOr([]) + c)
  }
}

=== FILE: flat_json.dfy ===
/** `JSON.stringify` and `JSON.parse` restricted to what the consultation
    flow stores in its `choices` column: a flat object whose keys and values
    are strings. Stringify escapes exactly as JavaScript does; Parse accepts
    the compact form Stringify produces (no insignificant whitespace) with
    any standard string escape. */
module FlatJson {
  import opened Js

  /** The lower-case hexadecimal digit `JSON.stringify` writes in `\u00XX`. */
  function HexDigit(d: nat): char
    requires d < 16
  {
    "0123456789abcdef"[d]
  }

  /** The value of a hexadecimal digit of either case. */
  function HexValue(c: char): (r: Option<nat>)
    ensures r.Some? ==> r.value < 16
  {
    if '0' <= c <= '9' then Some(c as int - '0' as int)
    else if 'a' <= c <= 'f' then Some(c as int - 'a' as int + 10)
    else if 'A' <= c <= 'F' then Some(c as int - 'A' as int + 10)
    else None
  }

  /** The code unit four hexadecimal digits denote. */
  function HexQuad(a: nat, b: nat, c: nat, d: nat): (r: nat)
    requires a < 16 && b < 16 && c < 16 && d < 16
    ensures r < 0x1_0000
  {
    var ab := a * 16 + b;
    assert ab < 256;
    var abc := ab * 16 + c;
    assert abc < 4096;
    abc * 16 + d
  }

  lemma HexRoundTrip(d: nat)
    requires d < 16
    ensures HexValue(HexDigit(d)) == Some(d)
  {
  }

  /** How `JSON.stringify` writes one character inside a string literal. */
  function EscapeChar(c: char): string {
    if c == '"' then "\\\""
    else if c == '\\' then "\\\\"
    else if c as int == 0x08 then "\\b"
    else if c as int == 0x0C then "\\f"
    else if c == '\n' then "\\n"
    else if c == '\r' then "\\r"
    else if c == '\t' then "\\t"
    else if c as int < 0x20 then "\\u00" + [HexDigit(c as int / 16), HexDigit(c as int % 16)]
    else [c]
  }

  function Escape(s: string): string {
    if s == [] then "" else EscapeChar(s[0]) + Escape(s[1..])
  }

  function Member(e: (string, string)): string {
    "\"" + Escape(e.0) + "\":\"" + Escape(e.1) + "\""
  }

  /** The members after the first, each preceded by a comma. */
  function MoreMembers(o: Obj<string>): string {
    if o == [] then "" else "," + Member(o[0]) + MoreMembers(o[1..])
  }

  /** `JSON.stringify(o)`. */
  function Stringify(o: Obj<string>): string {
    "{" + (if o == [] then "" else Member(o[0]) + MoreMembers(o[1..])) + "}"
  }

  /** Decodes the escape after a backslash: the character and how many
      characters of `t` it used. Escapes naming a UTF-16 surrogate are not
      read (a single surrogate is not a character here). */
  function Unescape(t: string): (r: Option<(char, nat)>)
    ensures r.Some? ==> 1 <= r.value.1 <= |t|
  {
    if t == [] then None
    else if t[0] == '"' || t[0] == '\\' || t[0] == '/' then Some((t[0], 1))
    else if t[0] == 'b' then Some((0x08 as char, 1))
    else if t[0] == 'f' then Some((0x0C as char, 1))
    else if t[0] == 'n' then Some(('\n', 1))
    else if t[0] == 'r' then Some(('\r', 1))
    else if t[0] == 't' then Some(('\t', 1))
    else if t[0] == 'u' && |t| >= 5 then
      match (HexValue(t[1]), HexValue(t[2]), HexValue(t[3]), HexValue(t[4]))
      case (Some(a), Some(b), Some(c), Some(d)) =>
        var v := HexQuad(a, b, c, d);
        if 0xD800 <= v < 0xE000 then None else Some((v as char, 5))
      case _ => None
    else None
  }

  /** Reads the rest of a string literal after its opening quote: the text
      it denotes and what follows the closing quote. */
  function ReadString(t: string): (r: Option<(string, string)>)
    ensures r.Some? ==> |r.value.1| < |t|
    decreases |t|
  {
    if t == [] then None
    else if t[0] == '"' then Some(("", t[1..]))
    else if t[0] == '\\' then
      match Unescape(t[1..])
      case None => None
      case Some((c, n)) =>
        match ReadString(t[1 + n..])
        case None => None
        case Some((s, rest)) => Some(([c] + s, rest))
    else if t[0] as int < 0x20 then None
    else
      match ReadString(t[1..])
      case None => None
      case Some((s, rest)) => Some(([t[0]] + s, rest))
  }

  /** Reads one `"key":"value"` member and returns what follows it. */
  function ReadMember(t: string): (r: Option<((string, string), string)>)
    ensures r.Some? ==> |r.value.1| < |t|
  {
    if t == [] || t[0] != '"' then None
    else
      match ReadString(t[1..])
      case None => None
      case Some((k, r1)) =>
        if |r1| < 2 || r1[0] != ':' || r1[1] != '"' then None
        else
          match ReadString(r1[2..])
          case None => None
          case Some((v, r2)) => Some(((k, v), r2))
  }

  /** Reads `,member` repeatedly up to the closing brace, which must end the
      text; a repeated key keeps its first position and its last value. */
  function ReadMembers(t: string, acc: Obj<string>): Option<Obj<string>>
    decreases |t|
  {
    if t == "}" then Some(acc)
    else if t == [] || t[0] != ',' then None
    else
      match ReadMember(t[1..])
      case None => None
      case Some((e, rest)) => ReadMembers(rest, Put(acc, e.0, e.1))
  }

  /** `JSON.parse(t)` for a flat object of strings; `None` where JSON.parse
      would throw or yield something else. */
  function Parse(t: string): Option<Obj<string>> {
    if |t| < 2 || t[0] != '{' then None
    else if t[1..] == "}" then Some([])
    else
      match ReadMember(t[1..])
      case None => None
      case Some((e, rest)) => ReadMembers(rest, [e])
  }

  /** What reading the text after one decoded character gives. */
  function Prepend(c: char, r: Option<(string, string)>): Option<(string, string)> {
    match r
    case None => None
    case Some((s, rest)) => Some(([c] + s, rest))
  }

  lemma ReadPlainChar(c: char, tail: string)
    requires c != '"' && c != '\\' && c as int >= 0x20
    ensures ReadString([c] + tail) == Prepend(c, ReadString(tail))
  {
    assert ([c] + tail)[1..] == tail;
  }

  lemma ReadShortEscape(c: char, e: char, tail: string)
    requires Unescape([e]) == Some((c, 1))
    ensures ReadString(['\\', e] + tail) == Prepend(c, ReadString(tail))
  {
    var t := ['\\', e] + tail;
    assert t[1..][0] == e;
    assert t[2..] == tail;
  }

  lemma ReadUnicodeEscape(c: char, tail: string)
    requires c as int < 0x20
    ensures ReadString(['\\', 'u', '0', '0', HexDigit(c as int / 16), HexDigit(c as int % 16)] + tail)
      == Prepend(c, ReadString(tail))
  {
    var hi, lo := c as int / 16, c as int % 16;
    HexRoundTrip(hi);
    HexRoundTrip(lo);
    var t := ['\\', 'u', '0', '0', HexDigit(hi), HexDigit(lo)] + tail;
    var u := t[1..];
    assert u[0] == 'u' && u[1] == '0' && u[2] == '0';
    assert u[3] == HexDigit(hi) && u[4] == HexDigit(lo);
    assert Unescape(u) == Some((c, 5));
    assert t[6..] == tail;
  }

  /** Reading an escaped character back yields the character. */
  lemma ReadEscapedChar(c: char, tail: string)
    ensures ReadString(EscapeChar(c) + tail) == Prepend(c, ReadString(tail))
  {
    if c == '"' {
      ReadShortEscape(c, '"', tail);
    } else if c == '\\' {
      ReadShortEscape(c, '\\', tail);
    } else if c as int == 0x08 {
      ReadShortEscape(c, 'b', tail);
    } else if c as int == 0x0C {
      ReadShortEscape(c, 'f', tail);
    } else if c == '\n' {
      ReadShortEscape(c, 'n', tail);
    } else if c == '\r' {
      ReadShortEscape(c, 'r', tail);
    } else if c == '\t' {
      ReadShortEscape(c, 't', tail);
    } else if c as int < 0x20 {
      ReadUnicodeEscape(c, tail);
      assert EscapeChar(c) + tail
        == ['\\', 'u', '0', '0', HexDigit(c as int / 16), HexDigit(c as int % 16)] + tail;
    } else {
      ReadPlainChar(c, tail);
    }
  }

  /** Reading an escaped string back, up to the closing quote, yields the
      string and leaves what follows the quote. */
  lemma {:induction false} ReadEscaped(s: string, rest: string)
    ensures ReadString(Escape(s) + "\"" + rest) == Some((s, rest))
  {
    if s == [] {
      assert Escape(s) + "\"" + rest == "\"" + rest;
    } else {
      var tail := Escape(s[1..]) + "\"" + rest;
      assert Escape(s) + "\"" + rest == EscapeChar(s[0]) + tail;
      ReadEscaped(s[1..], rest);
      ReadEscapedChar(s[0], tail);
      assert ReadString(tail) == Some((s[1..], rest));
      assert [s[0]] + s[1..] == s;
    }
  }

  /** A member is read by reading its key, the `:"` and its value. */
  lemma ReadMemberUnfold(t: string, k: string, r1: string, v: string, r2: string)
    requires |t| > 0 && t[0] == '"' && ReadString(t[1..]) == Some((k, r1))
    requires |r1| >= 2 && r1[0] == ':' && r1[1] == '"' && ReadString(r1[2..]) == Some((v, r2))
    ensures ReadMember(t) == Some(((k, v), r2))
  {
  }

  /** Where the key and the value of a written member begin. */
  lemma MemberText(e: (string, string), rest: string)
    ensures var t := Member(e) + rest;
      |t| > 0 && t[0] == '"' && t[1..] == Escape(e.0) + "\"" + (":\"" + Escape(e.1) + "\"" + rest)
  {
    assert Member(e) + rest == "\"" + (Escape(e.0) + "\"" + (":\"" + Escape(e.1) + "\"" + rest));
  }

  lemma ValueText(v: string, rest: string)
    ensures var a := ":\"" + Escape(v) + "\"" + rest;
      |a| >= 2 && a[0] == ':' && a[1] == '"' && a[2..] == Escape(v) + "\"" + rest
  {
  }

  lemma ReadMemberBack(e: (string, string), rest: string)
    ensures ReadMember(Member(e) + rest) == Some((e, rest))
  {
    var afterKey := ":\"" + Escape(e.1) + "\"" + rest;
    MemberText(e, rest);
    ValueText(e.1, rest);
    ReadEscaped(e.0, afterKey);
    ReadEscaped(e.1, rest);
    ReadMemberUnfold(Member(e) + rest, e.0, afterKey, e.1, rest);
  }

  /** One `,member` step appends the member when its key is new. */
  lemma ReadMembersStep(acc: Obj<string>, e: (string, string), rest: string)
    requires e.0 !in KeySet(acc)
    ensures ReadMembers("," + Member(e) + rest, acc) == ReadMembers(rest, acc + [e])
  {
    var t := "," + Member(e) + rest;
    assert t[1..] == Member(e) + rest;
    ReadMemberBack(e, rest);
  }

  /** Moving the first pending entry into the accumulator keeps the keys
      distinct, and that entry's key is new to the accumulator. */
  lemma HeadKeyFresh(acc: Obj<string>, o: Obj<string>)
    requires UniqueKeys(acc + o) && o != []
    ensures o[0].0 !in KeySet(acc)
    ensures acc + o == (acc + [o[0]]) + o[1..]
    ensures UniqueKeys((acc + [o[0]]) + o[1..])
  {
    assert (acc + o)[|acc|] == o[0];
    assert forall i :: 0 <= i < |acc| ==> (acc + o)[i] == acc[i];
    assert acc + o == (acc + [o[0]]) + o[1..];
  }

  lemma {:induction false} ReadMembersBack(acc: Obj<string>, o: Obj<string>)
    requires UniqueKeys(acc + o)
    ensures ReadMembers(MoreMembers(o) + "}", acc) == Some(acc + o)
    decreases |o|
  {
    if o == [] {
      assert MoreMembers(o) + "}" == "}";
      assert acc + o == acc;
    } else {
      var rest := MoreMembers(o[1..]) + "}";
      assert MoreMembers(o) + "}" == "," + Member(o[0]) + rest;
      HeadKeyFresh(acc, o);
      ReadMembersStep(acc, o[0], rest);
      ReadMembersBack(acc + [o[0]], o[1..]);
    }
  }

  /** A non-empty object is written as a brace, its first member, then the
      others and the closing brace. */
  lemma StringifyText(o: Obj<string>)
    requires o != []
    ensures var t := Stringify(o);
      |t| >= 2 && t[0] == '{' && t[1..] == Member(o[0]) + (MoreMembers(o[1..]) + "}")
      && t[1..] != "}"
  {
    var t := Stringify(o);
    assert t == "{" + (Member(o[0]) + (MoreMembers(o[1..]) + "}"));
    assert |Member(o[0])| >= 5;
  }

  /** `JSON.parse(JSON.stringify(o))` gives back the same entries in the
      same order: the `choices` column reads back as it was written. */
  lemma {:induction false} ParseStringify(o: Obj<string>)
    requires UniqueKeys(o)
    ensures Parse(Stringify(o)) == Some(o)
  {
    var t := Stringify(o);
    if o == [] {
      assert t == "{}";
    } else {
      var rest := MoreMembers(o[1..]) + "}";
      StringifyText(o);
      ReadMemberBack(o[0], rest);
      assert [o[0]] + o[1..] == o;
      ReadMembersBack([o[0]], o[1..]);
    }
  }
}

=== FILE: gpt_logging.dfy ===
/** `logGptData`: after each completion a page builds one usage record from
    the reply (model, token counts, the assistant's text), the serialized
    request, the wall-clock interval and three labels, and posts it to the
    log route; a failing post is re-thrown to the page. */
module GptLogging {
  import opened Js
  import opened Domain
  import FlatJson

  /** The JSON body posted to the log route. Times are milliseconds. */
  datatype GptLogPayload = GptLogPayload(
    gptModel: string,
    gptVendor: string,
    promptTokens: int,
    completionTokens: int,
    totalTokens: int,
    prompt: string,
    totalPrompts: Option<string>,
    response: string,
    useCase: string,
    startedAt: int,
    endedAt: int,
    responseTime: int,
    apiEndpointName: string)

  /** The `totalPrompts` object of a reply: its strings keyed "0", "1", ... */
  function IndexKeyed(ps: seq<string>): (r: Obj<string>)
    ensures |r| == |ps|
    ensures forall i :: 0 <= i < |r| ==> r[i] == (NatToString(i), ps[i])
  {
    seq(|ps|, i requires 0 <= i < |ps| => (NatToString(i), ps[i]))
  }

  lemma IndexKeysUnique(ps: seq<string>)
    ensures UniqueKeys(IndexKeyed(ps))
  {
    var o := IndexKeyed(ps);
    forall i, j | 0 <= i < j < |o| ensures o[i].0 != o[j].0 {
      if o[i].0 == o[j].0 {
        NatToStringInjective(i, j);
      }
    }
  }

  /** `JSON.stringify(gptData.totalPrompts)`; `undefined` drops the field. */
  function TotalPromptsJson(tp: Option<seq<string>>): Option<string> {
    match tp
    case None => None
    case Some(ps) => Some(FlatJson.Stringify(IndexKeyed(ps)))
  }

  /** The payload `logGptData` posts, or `None` when building it throws
      because the reply has no `usage` or no first choice. */
  function Payload(reply: GptReply, message: string, startedAt: int, endedAt: int,
                   vendor: string, useCase: string, apiEndpointName: string): (r: Option<GptLogPayload>)
    ensures r.Some? <==> reply.data.usage.Some? && |reply.data.choices| > 0
    ensures r.Some? ==> r.value.responseTime == endedAt - startedAt
    ensures r.Some? ==> r.value.startedAt + r.value.responseTime == r.value.endedAt
    ensures r.Some? ==>
      && r.value.promptTokens == reply.data.usage.value.promptTokens
      && r.value.completionTokens == reply.data.usage.value.completionTokens
      && r.value.totalTokens == reply.data.usage.value.totalTokens
    ensures r.Some? ==> (r.value.totalPrompts.Some? <==> reply.totalPrompts.Some?)
    ensures r.Some? && reply.totalPrompts.Some? ==>
      FlatJson.Parse(r.value.totalPrompts.value) == Some(IndexKeyed(reply.totalPrompts.value))
    ensures r.Some? ==>
      r.value.response == reply.data.choices[0].content && r.value.gptModel == reply.data.model
    ensures r.Some? ==>
      && r.value.prompt == message && r.value.useCase == useCase
      && r.value.apiEndpointName == apiEndpointName && r.value.gptVendor == vendor
      && r.value.startedAt == startedAt
  {
    if reply.data.usage.None? || |reply.data.choices| == 0 then None
    else
      var usage := reply.data.usage.value;
      assert reply.totalPrompts.Some? ==>
        FlatJson.Parse(TotalPromptsJson(reply.totalPrompts).value) == Some(IndexKeyed(reply.totalPrompts.value)) by {
        if reply.totalPrompts.Some? {
          IndexKeyedRoundTrip(reply.totalPrompts.value);
        }
      }
      Some(GptLogPayload(
        reply.data.model, vendor,
        usage.promptTokens, usage.completionTokens, usage.totalTokens,
        message, TotalPromptsJson(reply.totalPrompts), reply.data.choices[0].content,
        useCase, startedAt, endedAt, endedAt - startedAt, apiEndpointName))
  }

  /** The latency is never negative when the clock does not run backwards. */
  lemma ResponseTimeNonNegative(reply: GptReply, message: string, startedAt: int, endedAt: int,
                                vendor: string, useCase: string, apiEndpointName: string)
    requires endedAt >= startedAt && reply.data.usage.Some? && |reply.data.choices| > 0
    ensures Payload(reply, message, startedAt, endedAt, vendor, useCase, apiEndpointName).value.responseTime >= 0
  {
  }

  /** The stringified index-keyed prompts parse back to themselves. */
  lemma {:induction false} IndexKeyedRoundTrip(ps: seq<string>)
    ensures FlatJson.Parse(TotalPromptsJson(Some(ps)).value) == Some(IndexKeyed(ps))
  {
    IndexKeysUnique(ps);
    FlatJson.ParseStringify(IndexKeyed(ps));
  }

  datatype LogResult = Logged(payload: GptLogPayload) | Threw

  /** `logGptData`; `post` says whether the POST resolved. */
  function LogGptData(reply: GptReply, message: string, startedAt: int, endedAt: int,
                      vendor: string, useCase: string, apiEndpointName: string,
                      post: GptLogPayload -> bool): (r: LogResult)
    ensures var p := Payload(reply, message, startedAt, endedAt, vendor, useCase, apiEndpointName);
      && (r.Logged? <==> p.Some? && post(p.value))
      && (r.Logged? ==> r.payload == p.value)
  {
    match Payload(reply, message, startedAt, endedAt, vendor, useCase, apiEndpointName)
    case None => Threw
    case Some(p) => if post(p) then Logged(p) else Threw
  }

  /** The record a successful call posts carries the dispatch route's
      system prompts as text that reads back as the index-keyed prompts,
      and no `totalPrompts` field when the reply had none. */
  lemma TotalPromptsReadBack(reply: GptReply, message: string, startedAt: int, endedAt: int,
                             vendor: string, useCase: string, apiEndpointName: string,
                             post: GptLogPayload -> bool)
    requires LogGptData(reply, message, startedAt, endedAt, vendor, useCase, apiEndpointName, post).Logged?
    ensures var p := LogGptData(reply, message, startedAt, endedAt, vendor, useCase, apiEndpointName, post).payload;
      && (p.totalPrompts.Some? <==> reply.totalPrompts.Some?)
      && (reply.totalPrompts.Some? ==>
            FlatJson.Parse(p.totalPrompts.value) == Some(IndexKeyed(reply.totalPrompts.value)))
  {
  }
}

=== FILE: gpt_logs_api.dfy ===
/** The usage-log route: it resolves the signed-in user, derives the
    client's IP address, lists that user's records on GET and stores one
    record on POST. */
module GptLogsApi {
  import opened Js
  import opened Domain
  import opened GptLogging

  const MethodNotAllowed: string := "メソッドが許可されていません"
  const Unauthenticated: string := "認証されませんでした"

  /** How Node presents the `x-forwarded-for` header. */
  datatype ForwardedFor = NoHeader | OneValue(text: string) | ManyValues(values: seq<string>)

  /** A stored usage record. */
  datatype GptLog = GptLog(userId: int, entry: GptLogPayload, clientIp: Option<string>)

  datatype LogsBody = Logs(logs: seq<GptLog>) | Created(log: GptLog) | CreateError | ErrorMessage(text: string)

  /** A reply with the store after the request, or an exception the handler
      does not catch (the framework then answers on its own). */
  datatype LogsOutcome = Unhandled | Replied(status: int, body: LogsBody, store: seq<GptLog>)

  /** The client address: the first comma-separated entry of a single
      `x-forwarded-for` value, else the socket's remote address. */
  function ClientIp(forwarded: ForwardedFor, remoteAddress: Option<string>): (r: Option<string>)
    ensures !forwarded.OneValue? ==> r == remoteAddress
    ensures forwarded.OneValue? ==> r.Some? && r.value <= forwarded.text && ',' !in r.value
    ensures forwarded.OneValue? && ',' !in forwarded.text ==> r == Some(forwarded.text)
    ensures forwarded.OneValue? && ',' in forwarded.text ==> forwarded.text[|r.value|] == ','
  {
    match forwarded
    case OneValue(t) => Some(FirstSegment(t, ','))
    case _ => remoteAddress
  }

  /** `gptLog.findMany({ where: { userId } })`, in store order. */
  function LogsOf(store: seq<GptLog>, userId: int): (r: seq<GptLog>)
    ensures forall l :: l in r <==> l in store && l.userId == userId
    ensures |r| <= |store|
  {
    if store == [] then []
    else if store[0].userId == userId then [store[0]] + LogsOf(store[1..], userId)
    else LogsOf(store[1..], userId)
  }

  /** The listing keeps store order and multiplicity: listing two parts of
      the store lists each part in turn, and a single record is listed
      exactly when it is the user's. */
  lemma {:induction false} LogsOfConcat(a: seq<GptLog>, b: seq<GptLog>, userId: int)
    ensures LogsOf(a + b, userId) == LogsOf(a, userId) + LogsOf(b, userId)
    ensures forall l :: LogsOf([l], userId) == if l.userId == userId then [l] else []
    decreases |a|
  {
    if a != [] {
      assert (a + b)[1..] == a[1..] + b;
      LogsOfConcat(a[1..], b, userId);
    } else {
      assert a + b == b;
    }
    forall l ensures LogsOf([l], userId) == if l.userId == userId then [l] else [] {
      assert [l][1..] == [];
    }
  }

  /** The record a POST creates for `user`. */
  function NewLog(user: UserRecord, body: GptLogPayload, forwarded: ForwardedFor,
                  remoteAddress: Option<string>): GptLog {
    GptLog(user.id, body, ClientIp(forwarded, remoteAddress))
  }

  /** The GET/POST/other dispatch once a user record has been looked up. */
  function Dispatch(user: Option<UserRecord>, store: seq<GptLog>, httpMethod: string,
                    forwarded: ForwardedFor, remoteAddress: Option<string>,
                    body: GptLogPayload, createFails: bool): LogsOutcome {
    if httpMethod == "GET" then
      if user.None? then Unhandled else Replied(200, Logs(LogsOf(store, user.value.id)), store)
    else if httpMethod == "POST" then
      if user.None? || createFails then Replied(200, CreateError, store)
      else
        var log := NewLog(user.value, body, forwarded, remoteAddress);
        Replied(200, Created(log), store + [log])
    else Replied(405, ErrorMessage(MethodNotAllowed), store)
  }

  /** The handler as written: the session's e-mail is read before the
      session is checked, so a missing session throws and the 401 branch is
      never taken. `createFails` says whether the database insert throws. */
  function Handle(session: Option<Session>, users: seq<UserRecord>, store: seq<GptLog>,
                  httpMethod: string, forwarded: ForwardedFor, remoteAddress: Option<string>,
                  body: GptLogPayload, createFails: bool): (r: LogsOutcome)
    ensures session.None? ==> r.Unhandled?
    ensures r.Replied? ==> r.status == 200 || r.status == 405
    ensures r.Replied? && r.status == 405 <==> session.Some? && httpMethod != "GET" && httpMethod != "POST"
    ensures r.Replied? && r.body.Logs? ==>
      exists u :: u in users && u.email == session.value.email
        && forall l :: l in r.body.logs <==> l in store && l.userId == u.id
    ensures r.Replied? && r.body.Created? ==>
      && httpMethod == "POST"
      && r.store == store + [r.body.log]
      && r.body.log.entry == body
      && r.body.log.clientIp == ClientIp(forwarded, remoteAddress)
      && exists u :: u in users && u.email == session.value.email && r.body.log.userId == u.id
    ensures r.Replied? && !r.body.Created? ==> r.store == store
    ensures session.Some? && httpMethod == "GET" ==>
      var u := FindByEmail(users, session.value.email);
      && (u.None? ==> r.Unhandled?)
      && (u.Some? ==> r == Replied(200, Logs(LogsOf(store, u.value.id)), store))
    ensures session.Some? && httpMethod == "POST" ==>
      var u := FindByEmail(users, session.value.email);
      && (u.None? || createFails ==> r == Replied(200, CreateError, store))
      && (u.Some? && !createFails ==>
            r == Replied(200, Created(NewLog(u.value, body, forwarded, remoteAddress)),
                         store + [NewLog(u.value, body, forwarded, remoteAddress)]))
  {
    match session
    case None => Unhandled
    case Some(s) => Dispatch(FindByEmail(users, s.email), store, httpMethod, forwarded, remoteAddress, body, createFails)
  }

  /** A failed insert is still answered with status 200, the error as body. */
  lemma CreateFailureAnswers200(s: Session, users: seq<UserRecord>, store: seq<GptLog>,
                                forwarded: ForwardedFor, remoteAddress: Option<string>, body: GptLogPayload)
    ensures Handle(Some(s), users, store, "POST", forwarded, remoteAddress, body, true)
      == Replied(200, CreateError, store)
  {
  }

  /** Whatever the request, the handler as written never answers 401. */
  lemma NeverUnauthorized(session: Option<Session>, users: seq<UserRecord>, store: seq<GptLog>,
                          httpMethod: string, forwarded: ForwardedFor, remoteAddress: Option<string>,
                          body: GptLogPayload, createFails: bool)
    ensures var r := Handle(session, users, store, httpMethod, forwarded, remoteAddress, body, createFails);
      !(r.Replied? && r.status == 401)
  {
  }

  /** The handler with the session checked before it is used, as the 401
      branch intends. */
  function HandleChecked(session: Option<Session>, users: seq<UserRecord>, store: seq<GptLog>,
                         httpMethod: string, forwarded: ForwardedFor, remoteAddress: Option<string>,
                         body: GptLogPayload, createFails: bool): (r: LogsOutcome)
    ensures session.None? <==> r == Replied(401, ErrorMessage(Unauthenticated), store)
    ensures session.Some? ==>
      r == Handle(session, users, store, httpMethod, forwarded, remoteAddress, body, createFails)
  {
    match session
    case None => Replied(401, ErrorMessage(Unauthenticated), store)
    case Some(s) => Dispatch(FindByEmail(users, s.email), store, httpMethod, forwarded, remoteAddress, body, createFails)
  }

  /** End to end: a page's successful `logGptData` call, received by the
      route for a signed-in user, stores one record whose latency is the
      measured interval, whose token counts are the reply's and which
      carries the client address and the user's id. */
  lemma {:induction false} LoggedCompletionIsStored(
    reply: GptReply, message: string, startedAt: int, endedAt: int, vendor: string,
    useCase: string, apiEndpointName: string, post: GptLogPayload -> bool,
    s: Session, users: seq<UserRecord>, store: seq<GptLog>,
    forwarded: ForwardedFor, remoteAddress: Option<string>)
    requires LogGptData(reply, message, startedAt, endedAt, vendor, useCase, apiEndpointName, post).Logged?
    requires FindByEmail(users, s.email).Some?
    ensures var p := LogGptData(reply, message, startedAt, endedAt, vendor, useCase, apiEndpointName, post).payload;
      var r := HandleChecked(Some(s), users, store, "POST", forwarded, remoteAddress, p, false);
      && r.Replied? && r.status == 200 && r.body.Created?
      && r.store == store + [r.body.log]
      && r.body.log.userId == FindByEmail(users, s.email).value.id
      && r.body.log.entry.responseTime == endedAt - startedAt
      && r.body.log.entry.totalTokens == reply.data.usage.value.totalTokens
      && r.body.log.entry.response == reply.data.choices[0].content
      && r.body.log.clientIp == ClientIp(forwarded, remoteAddress)
  {
    var p := LogGptData(reply, message, startedAt, endedAt, vendor, useCase, apiEndpointName, post).payload;
    assert p == Payload(reply, message, startedAt, endedAt, vendor, useCase, apiEndpointName).value;
  }
}

=== FILE: gpt_route.dfy ===
/** The dispatch route every page posts to: it accepts only POST, builds a
    single system message from the caller's inputs and the primary prompt,
    picks the conversation (a lone secondary prompt, or the caller's
    messages), sends both through the vendor the environment selects and
    answers with the completion and the prompts it used. */
module GptRoute {
  import opened Js
  import opened Domain
  import OpenAi
  import AzureOpenAi

  const MethodNotAllowed: string := "メソッドが許可されていません"
  const RequestFailed: string := "GPTへのリクエストに失敗しました：Error: completionのデータの取得に失敗しました。"

  /** The parts of the request the handler can see. The tertiary to quinary
      prompts arrive in the body too. */
  datatype GptRequest = GptRequest(
    httpMethod: string,
    userInputs: Option<string>,
    primaryPrompt: Option<string>,
    secondaryPrompt: Option<string>,
    tertiaryPrompt: Option<string>,
    quaternaryPrompt: Option<string>,
    quinaryPrompt: Option<string>,
    messages: Option<seq<Message>>)

  /** The three system-parameter lookups the providers make. */
  datatype Lookups = Lookups(
    openAiModelName: ParameterLookup,
    azureDeployment: ParameterLookup,
    azureVersion: ParameterLookup)

  /** The reply body: the completion data, a `{message}` object, or a bare
      JSON string. */
  datatype GptBody = Completed(reply: GptReply) | MessageObject(message: string) | BareString(text: string)

  /** The reply, and the provider request the call issued, if any. */
  datatype GptResponse = GptResponse(status: int, body: GptBody, outbound: Option<ProviderPost>)

  /** The one system message: user inputs then primary prompt, each
      defaulting to the empty string. */
  function SystemPrompts(req: GptRequest): (r: seq<Message>)
    ensures |r| == 1 && r[0].role == System
    ensures OrEmpty(req.userInputs) <= r[0].content
    ensures r[0].content[|OrEmpty(req.userInputs)|..] == OrEmpty(req.primaryPrompt)
  {
    [Message(System, OrEmpty(req.userInputs) + OrEmpty(req.primaryPrompt))]
  }

  /** The conversation sent after the system message. */
  function Conversations(req: GptRequest): (r: Option<seq<Message>>)
    ensures Truthy(req.secondaryPrompt) ==> r == Some([Message(User, req.secondaryPrompt.value)])
    ensures !Truthy(req.secondaryPrompt) ==> r == req.messages
  {
    if Truthy(req.secondaryPrompt) then Some([Message(User, req.secondaryPrompt.value)])
    else req.messages
  }

  /** `(process.env.GPT_VENDOR || 'OPENAI') == 'OPENAI'`. */
  predicate UsesOpenAi(env: Env) {
    Or(env.gptVendor, Some("OPENAI")) == Some("OPENAI")
  }

  /** The provider request a POST issues. */
  function Outbound(req: GptRequest, env: Env, lookups: Lookups): (r: Option<ProviderPost>)
    ensures r.Some? <==> Conversations(req).Some?
    ensures r.Some? ==>
      && |r.value.messages| == 1 + |Conversations(req).value|
      && r.value.messages[0] == Message(System, OrEmpty(req.userInputs) + OrEmpty(req.primaryPrompt))
      && r.value.messages[1..] == Conversations(req).value
    ensures r.Some? && UsesOpenAi(env) ==>
      r.value.baseUrl == OpenAi.BaseUrl && r.value.model == OpenAi.ModelName(env, lookups.openAiModelName)
    ensures r.Some? && !UsesOpenAi(env) ==> r.value.model.None?
  {
    if UsesOpenAi(env) then
      OpenAi.Request(env, lookups.openAiModelName, Some(SystemPrompts(req)), Conversations(req))
    else
      AzureOpenAi.Request(env, lookups.azureDeployment, lookups.azureVersion,
                          Some(SystemPrompts(req)), Conversations(req))
  }

  /** `{ ...systemPrompts.map((prompt) => prompt.content) }`. */
  function TotalPrompts(req: GptRequest): seq<string> {
    var sp := SystemPrompts(req);
    seq(|sp|, i requires 0 <= i < |sp| => sp[i].content)
  }

  /** The handler. `send` is the network. */
  function Handle(req: GptRequest, env: Env, lookups: Lookups, send: Transport): (r: GptResponse)
    ensures req.httpMethod != "POST" ==>
      r.status == 405 && r.outbound.None? && r.body == MessageObject(MethodNotAllowed)
    ensures req.httpMethod == "POST" ==> r.outbound == Outbound(req, env, lookups)
    ensures r.status == 200 <==>
      req.httpMethod == "POST" && r.outbound.Some? && send(r.outbound.value).Some?
      && send(r.outbound.value).value.data.Some?
    ensures r.status == 200 ==>
      r.body == Completed(GptReply(send(r.outbound.value).value.data.value,
                                   Some([OrEmpty(req.userInputs) + OrEmpty(req.primaryPrompt)])))
    ensures req.httpMethod == "POST" && r.status != 200 ==>
      r.status == 500 && r.body == BareString(RequestFailed)
  {
    if req.httpMethod != "POST" then GptResponse(405, MessageObject(MethodNotAllowed), None)
    else
      var outbound := Outbound(req, env, lookups);
      var completion := if outbound.Some? then send(outbound.value) else None;
      if completion.None? || completion.value.data.None? then
        GptResponse(500, BareString(RequestFailed), outbound)
      else
        assert TotalPrompts(req) == [SystemPrompts(req)[0].content];
        GptResponse(200, Completed(GptReply(completion.value.data.value, Some(TotalPrompts(req)))), outbound)
  }

  /** The vendor defaults to OpenAI; any other configured value routes the
      same system prompts and conversation to Azure. */
  lemma VendorDispatch(req: GptRequest, env: Env, lookups: Lookups)
    requires req.httpMethod == "POST"
    ensures env.gptVendor.None? || env.gptVendor == Some("") || env.gptVendor == Some("OPENAI") ==>
      Outbound(req, env, lookups) ==
        OpenAi.Request(env, lookups.openAiModelName, Some(SystemPrompts(req)), Conversations(req))
    ensures Truthy(env.gptVendor) && env.gptVendor != Some("OPENAI") ==>
      Outbound(req, env, lookups) ==
        AzureOpenAi.Request(env, lookups.azureDeployment, lookups.azureVersion,
                            Some(SystemPrompts(req)), Conversations(req))
  {
  }

  /** With a truthy secondary prompt, whatever the caller sent as
      `messages` (any length, or nothing), the provider receives exactly the
      system message followed by one user message holding the secondary
      prompt. */
  lemma SecondaryPromptReplacesHistory(req: GptRequest, env: Env, lookups: Lookups,
                                       other: Option<seq<Message>>)
    requires req.httpMethod == "POST" && Truthy(req.secondaryPrompt)
    ensures Outbound(req, env, lookups) == Outbound(req.(messages := other), env, lookups)
    ensures Outbound(req, env, lookups).Some?
    ensures Outbound(req, env, lookups).value.messages ==
      [Message(System, OrEmpty(req.userInputs) + OrEmpty(req.primaryPrompt)),
       Message(User, req.secondaryPrompt.value)]
  {
  }

  /** Without a secondary prompt the caller's history is forwarded after the
      system message, unchanged in length and order. */
  lemma HistoryForwarded(req: GptRequest, env: Env, lookups: Lookups)
    requires req.httpMethod == "POST" && !Truthy(req.secondaryPrompt) && req.messages.Some?
    ensures Outbound(req, env, lookups).Some?
    ensures |Outbound(req, env, lookups).value.messages| == 1 + |req.messages.value|
    ensures Outbound(req, env, lookups).value.messages[1..] == req.messages.value
  {
  }

  /** The tertiary, quaternary and quinary prompts are never read: changing
      them changes neither the provider request nor the reply. */
  lemma LaterPromptsInert(req: GptRequest, env: Env, lookups: Lookups, send: Transport,
                          t: Option<string>, q: Option<string>, u: Option<string>)
    ensures Handle(req, env, lookups, send) ==
      Handle(req.(tertiaryPrompt := t, quaternaryPrompt := q, quinaryPrompt := u), env, lookups, send)
  {
  }

  /** A POST without a secondary prompt and without `messages` fails while
      the provider client builds its body, so it answers 500 without any
      request reaching a provider. */
  lemma MissingMessagesFail(req: GptRequest, env: Env, lookups: Lookups, send: Transport)
    requires req.httpMethod == "POST" && !Truthy(req.secondaryPrompt) && req.messages.None?
    ensures Handle(req, env, lookups, send).status == 500
    ensures Handle(req, env, lookups, send).outbound.None?
  {
  }
}

=== FILE: interviews_page.dfy ===
/** The interview page: each turn sends only the text box's content to the
    endpoint, shows the reply's question and offers its choices as buttons;
    the proposals of the latest reply are kept for display. The page catches
    nothing. */
module InterviewsPage {
  import opened Js
  import opened Domain
  import opened JsonValue
  import PromptDisplay
  import GptLogging

  const UseCase: string := "インタビュー"

  /** The page state `callGpt` touches. `proposals` is `None` when the last
      reply had no `proposals` key (`undefined`). */
  datatype InterviewPage = InterviewPage(
    userInput: string,
    messages: seq<Message>,
    displayPrompts: Obj<string>,
    proposals: Option<Json>,
    loading: bool)

  /** The calls a turn makes: the endpoint, `JSON.stringify` of the request,
      the clock readings, the usage-log POST and `JSON.parse`. */
  datatype InterviewIo = InterviewIo(
    callEndpoint: (string, EndpointRequest) -> Option<GptReply>,
    stringify: EndpointRequest -> string,
    startedAt: int,
    endedAt: int,
    postLog: GptLogging.GptLogPayload -> bool,
    parse: string -> Option<Json>)

  /** The page after the turn, the request it sent, and whether an
      exception ended it (the spinner then stays). */
  datatype Turn = Turn(page: InterviewPage, request: EndpointRequest, aborted: bool)

  /** The request of a turn: the text box's content alone, with no history
      and no request id. */
  function TurnRequest(page: InterviewPage, ep: ApiEndpoint): (r: EndpointRequest)
    ensures r.messages == [Message(User, page.userInput)]
    ensures r.requestId.None? && r.ragFileName.None?
    ensures r.primaryPrompt == ep.primaryPrompt && r.quinaryPrompt == ep.quinaryPrompt
    ensures r.secondaryPrompt == ep.secondaryPrompt && r.tertiaryPrompt == ep.tertiaryPrompt
    ensures r.quaternaryPrompt == ep.quaternaryPrompt
  {
    RequestFor(ep, None, [Message(User, page.userInput)], None)
  }

  /** `JSON.parse(assistantMessage).proposals`; `None` inside means
      `undefined`, an outer `None` an exception. */
  function ReadProposals(v: Option<Json>): (r: Option<Option<Json>>)
    ensures r.None? <==> v.None? || v.value.JNull?
    ensures v.Some? && v.value.JObj? ==> r == Some(Get(v.value.members, "proposals"))
    ensures v.Some? && !v.value.JNull? && !v.value.JObj? ==> r == Some(None)
  {
    match v
    case None => None
    case Some(x) =>
      match Prop(x, "proposals")
      case TypeError => None
      case Undefined => Some(None)
      case Defined(p) => Some(Some(p))
  }

  /** `callGpt(text)`: `text` is what the conversation shows for the user's
      turn; what is sent is the text box. */
  function CallGpt(page: InterviewPage, text: string, ep: ApiEndpoint, vendor: string, io: InterviewIo)
    : (r: Turn)
    ensures r.request == TurnRequest(page, ep)
    ensures r.page.displayPrompts == PromptDisplay.WithUserInput(page.userInput, ep)
    ensures |r.page.messages| >= |page.messages| + 1
    ensures r.page.messages[..|page.messages| + 1] == page.messages + [Message(User, text)]
    ensures r.aborted <==> r.page.loading
    ensures var reply := io.callEndpoint(ep.url, r.request);
      !r.aborted <==>
        && reply.Some?
        && GptLogging.LogGptData(reply.value, io.stringify(r.request), io.startedAt, io.endedAt, vendor,
                                 UseCase, ep.name, io.postLog).Logged?
        && ReadProposals(io.parse(reply.value.data.choices[0].content)).Some?
    ensures r.aborted ==> r.page.proposals == Some(JArr([])) && r.page.userInput == page.userInput
    ensures !r.aborted ==>
      && var reply := io.callEndpoint(ep.url, r.request);
      && reply.Some? && |reply.value.data.choices| > 0
      && var content := reply.value.data.choices[0].content;
      && r.page.messages == page.messages + [Message(User, text), Message(Assistant, content)]
      && ReadProposals(io.parse(content)) == Some(r.page.proposals)
      && r.page.userInput == ""
  {
    var request := TurnRequest(page, ep);
    var started := page.(loading := true, proposals := Some(JArr([])),
                         messages := page.messages + [Message(User, text)],
                         displayPrompts := PromptDisplay.WithUserInput(page.userInput, ep));
    assert started.messages[..|page.messages| + 1] == started.messages;
    var halted := Turn(started, request, true);
    match io.callEndpoint(ep.url, request)
    case None => halted
    case Some(reply) =>
      if GptLogging.LogGptData(reply, io.stringify(request), io.startedAt, io.endedAt, vendor, UseCase,
                               ep.name, io.postLog).Threw? then halted
      else
        var content := reply.data.choices[0].content;
        var answered := started.(messages := started.messages + [Message(Assistant, content)]);
        assert answered.messages[..|page.messages| + 1] == started.messages;
        match ReadProposals(io.parse(content))
        case None => Turn(answered, request, true)
        case Some(p) => Turn(answered.(proposals := p, userInput := "", loading := false), request, false)
  }

  /** A turn whose reply is logged and parses to an object completes: the
      reply is shown after the user's turn, the proposals are the object's
      `proposals` entry, the text box is cleared and the spinner stops. */
  lemma ObjectReplyCompletesTurn(page: InterviewPage, text: string, ep: ApiEndpoint, vendor: string,
                                 io: InterviewIo, reply: GptReply, members: seq<(string, Json)>)
    requires io.callEndpoint(ep.url, TurnRequest(page, ep)) == Some(reply)
    requires GptLogging.LogGptData(reply, io.stringify(TurnRequest(page, ep)), io.startedAt, io.endedAt,
                                   vendor, UseCase, ep.name, io.postLog).Logged?
    requires io.parse(reply.data.choices[0].content) == Some(JObj(members))
    ensures var r := CallGpt(page, text, ep, vendor, io);
      && !r.aborted && !r.page.loading
      && r.page.proposals == Get(members, "proposals")
      && r.page.userInput == ""
      && r.page.messages == page.messages + [Message(User, text), Message(Assistant, reply.data.choices[0].content)]
  {
  }

  /** The interview sends no history: pages that differ only in the
      conversation so far send the same request. */
  lemma NoHistorySent(p: InterviewPage, q: InterviewPage, text: string, ep: ApiEndpoint, vendor: string,
                      io: InterviewIo)
    requires p.userInput == q.userInput
    ensures CallGpt(p, text, ep, vendor, io).request == CallGpt(q, text, ep, vendor, io).request
    ensures CallGpt(p, text, ep, vendor, io).aborted == CallGpt(q, text, ep, vendor, io).aborted
  {
  }

  /** Clicking a choice shows the choice as the user's turn but sends the
      text box's content; only a submit (which passes the text box) sends
      what it shows. */
  lemma ChoiceClickSendsTextBox(page: InterviewPage, choice: string, ep: ApiEndpoint, vendor: string,
                                io: InterviewIo)
    ensures var r := CallGpt(page, choice, ep, vendor, io);
      && r.page.messages[|page.messages|] == Message(User, choice)
      && r.request.messages == [Message(User, page.userInput)]
  {
    var r := CallGpt(page, choice, ep, vendor, io);
    assert r.page.messages[..|page.messages| + 1][|page.messages|] == Message(User, choice);
  }

  /** The choice buttons under an assistant message. */
  datatype Buttons = RenderError | Labels(items: seq<Json>)

  /** `JSON.parse(message.content).choices.map(...)`: one button per element
      of a `choices` array; any other shape throws while rendering. */
  function ChoiceButtons(content: string, parse: string -> Option<Json>): (r: Buttons)
    ensures r.Labels? <==>
      && parse(content).Some?
      && Prop(parse(content).value, "choices").Defined?
      && Prop(parse(content).value, "choices").value.JArr?
    ensures r.Labels? ==> r.items == Prop(parse(content).value, "choices").value.items
  {
    match parse(content)
    case None => RenderError
    case Some(v) =>
      match Prop(v, "choices")
      case Defined(JArr(xs)) => Labels(xs)
      case _ => RenderError
  }

  /** What `questionText` renders for a stored assistant message. */
  datatype Rendered = Crash | Nothing | Parts(parts: seq<Json>)

  /** `questionText(jsonText)`: the values of a truthy `question`, else
      nothing; text that does not parse throws while rendering. */
  function QuestionText(content: string, parse: string -> Option<Json>): (r: Rendered)
    ensures r.Crash? <==> parse(content).None?
    ensures r.Parts? <==>
      && parse(content).Some? && JsonValue.Truthy(parse(content).value)
      && Prop(parse(content).value, "question").Defined?
      && JsonValue.Truthy(Prop(parse(content).value, "question").value)
    ensures r.Parts? ==> r.parts == Values(Prop(parse(content).value, "question").value)
  {
    match parse(content)
    case None => Crash
    case Some(v) =>
      if !JsonValue.Truthy(v) then Nothing
      else
        match Prop(v, "question")
        case Defined(q) => if JsonValue.Truthy(q) then Parts(Values(q)) else Nothing
        case _ => Nothing
  }

  /** The text React shows for an array of strings: the strings side by
      side. */
  function Shown(parts: seq<Json>): string {
    if parts == [] then ""
    else (if parts[0].JStr? then parts[0].s else "") + Shown(parts[1..])
  }

  lemma {:induction false} ShownCharacters(s: string)
    ensures Shown(seq(|s|, i requires 0 <= i < |s| => JStr([s[i]]))) == s
    decreases |s|
  {
    if s != [] {
      var parts := seq(|s|, i requires 0 <= i < |s| => JStr([s[i]]));
      assert parts[1..] == seq(|s[1..]|, i requires 0 <= i < |s[1..]| => JStr([s[1..][i]]));
      ShownCharacters(s[1..]);
      assert [s[0]] + s[1..] == s;
    }
  }

  /** A question given as a string is split into its characters, which
      render side by side as the question itself. */
  lemma StringQuestionShownWhole(content: string, parse: string -> Option<Json>, text: string)
    requires parse(content).Some? && parse(content).value.JObj?
    requires Get(parse(content).value.members, "question") == Some(JStr(text)) && text != ""
    ensures QuestionText(content, parse).Parts?
    ensures Shown(QuestionText(content, parse).parts) == text
  {
    assert Values(JStr(text)) == seq(|text|, i requires 0 <= i < |text| => JStr([text[i]]));
    ShownCharacters(text);
  }
}

=== FILE: js.dfy ===
/** The pieces of JavaScript semantics the application logic leans on:
    `undefined`/`null`, truthiness, `||` on strings, template strings,
    `Array.prototype.slice`, `String.prototype.split` and objects whose
    string keys keep insertion order. */
module Js {

  /** A value that may be `undefined` or `null` (both are `None`). */
  datatype Option<+T> = None | Some(value: T) {
    function GetOr(default: T): T {
      match this
      case Some(v) => v
      case None => default
    }
  }

  /** JavaScript truthiness of a possibly missing string: `undefined`,
      `null` and `""` are falsy, every other string is truthy. */
  predicate Truthy(s: Option<string>) {
    s.Some? && s.value != ""
  }

  /** `a || b` on possibly missing strings. */
  function Or(a: Option<string>, b: Option<string>): Option<string> {
    if Truthy(a) then a else b
  }

  /** `a ? a : ''`: the string when truthy, the empty string otherwise. */
  function OrEmpty(a: Option<string>): string {
    if Truthy(a) then a.value else ""
  }

  /** How a template literal renders a possibly undefined string. */
  function Template(s: Option<string>): string {
    match s
    case Some(v) => v
    case None => "undefined"
  }

  /** The position `slice` uses for a start or end argument on a sequence
      of length `n`: negative values count from the end, and the result is
      clamped into `[0, n]`. */
  function ClampIndex(i: int, n: nat): (r: nat)
    ensures r <= n
    ensures 0 <= i <= n ==> r == i
  {
    if i < 0 then (if n + i < 0 then 0 else n + i)
    else if i > n then n
    else i
  }

  /** `s.slice(start, end)`. */
  function Slice<T>(s: seq<T>, start: int, end: int): (r: seq<T>)
    ensures 0 <= start <= end <= |s| ==> r == s[start..end]
    ensures 0 <= start <= |s| <= end ==> r == s[start..]
    ensures -|s| <= start <= end < 0 ==> r == s[|s| + start..|s| + end]
    ensures |s| <= start ==> r == []
    ensures start < 0 || end >= 0 ==> |r| <= if end - start < 0 then 0 else end - start
    ensures forall x :: x in r ==> x in s
  {
    var a := ClampIndex(start, |s|);
    var b := ClampIndex(end, |s|);
    ClampWidth(start, end, |s|);
    if a < b then s[a..b] else []
  }

  /** Clamping never widens a range. */
  lemma ClampWidth(start: int, end: int, n: nat)
    ensures start < 0 || end >= 0 ==>
      ClampIndex(end, n) - ClampIndex(start, n) <= if end - start < 0 then 0 else end - start
  {
  }

  /** `s.split(sep)[0]`: the text before the first separator, or all of
      `s` when it has none. */
  function FirstSegment(s: string, sep: char): (r: string)
    ensures r <= s
    ensures sep !in r
    ensures |r| < |s| ==> s[|r|] == sep
    ensures sep !in s ==> r == s
  {
    if s == [] || s[0] == sep then ""
    else [s[0]] + FirstSegment(s[1..], sep)
  }

  /** The decimal digit for `d`. */
  function DigitChar(d: nat): char
    requires d < 10
  {
    (48 + d) as char
  }

  /** `n.toString()` for a non-negative integer. */
  function NatToString(n: nat): (r: string)
    ensures |r| >= 1
    ensures n >= 10 ==> |r| >= 2
    decreases n
  {
    if n < 10 then [DigitChar(n)]
    else NatToString(n / 10) + [DigitChar(n % 10)]
  }

  /** Distinct numbers print differently. */
  lemma {:induction false} NatToStringInjective(a: nat, b: nat)
    requires NatToString(a) == NatToString(b)
    ensures a == b
    decreases a
  {
    if a >= 10 && b >= 10 {
      var sa, sb := NatToString(a), NatToString(b);
      assert sa[|sa| - 1] == DigitChar(a % 10) && sb[|sb| - 1] == DigitChar(b % 10);
      assert sa[..|sa| - 1] == NatToString(a / 10);
      assert sb[..|sb| - 1] == NatToString(b / 10);
      NatToStringInjective(a / 10, b / 10);
    }
  }

  /** A plain object with string keys, as the list of its entries in
      insertion order. This is what `Object.entries` returns on the
      assumption that no key is integer-like: JavaScript lists such keys
      first, in ascending order, and this model does not. */
  type Obj<V> = seq<(string, V)>

  function KeySet<V>(o: Obj<V>): set<string> {
    set i | 0 <= i < |o| :: o[i].0
  }

  predicate UniqueKeys<V>(o: Obj<V>) {
    forall i, j :: 0 <= i < j < |o| ==> o[i].0 != o[j].0
  }

  lemma UniqueKeysPrefix<V>(o: Obj<V>, n: nat)
    requires UniqueKeys(o) && n <= |o|
    ensures UniqueKeys(o[..n])
  {
  }

  /** Distinct keys: an object has as many keys as entries. */
  lemma {:induction false} KeySetCard<V>(o: Obj<V>)
    requires UniqueKeys(o)
    ensures |KeySet(o)| == |o|
    decreases |o|
  {
    if o != [] {
      HeadKeySplit(o);
      KeySetCard(o[1..]);
    }
  }

  /** The first key of an object with distinct keys is not among the rest,
      and together they make up its key set. */
  lemma HeadKeySplit<V>(o: Obj<V>)
    requires UniqueKeys(o) && o != []
    ensures UniqueKeys(o[1..])
    ensures o[0].0 !in KeySet(o[1..])
    ensures KeySet(o) == {o[0].0} + KeySet(o[1..])
  {
    KeySetAppend([o[0]], o[1..]);
    assert o == [o[0]] + o[1..];
    assert KeySet([o[0]]) == {o[0].0};
  }

  /** `o[k]`, `None` when the key is absent. */
  function Get<V>(o: Obj<V>, k: string): (r: Option<V>)
    ensures r.Some? <==> k in KeySet(o)
  {
    if o == [] then None
    else if o[0].0 == k then Some(o[0].1)
    else Get(o[1..], k)
  }

  /** `o[k] = v`: an existing key keeps its position and takes the new
      value; a new key is appended. */
  function Put<V>(o: Obj<V>, k: string, v: V): (r: Obj<V>)
    ensures Get(r, k) == Some(v)
    ensures forall k' :: k' != k ==> Get(r, k') == Get(o, k')
    ensures KeySet(r) == KeySet(o) + {k}
    ensures k !in KeySet(o) ==> r == o + [(k, v)]
    ensures k in KeySet(o) ==> |r| == |o|
  {
    if o == [] then [(k, v)]
    else if o[0].0 == k then
      KeySetAppend([o[0]], o[1..]);
      KeySetAppend([(k, v)], o[1..]);
      assert o == [o[0]] + o[1..];
      [(k, v)] + o[1..]
    else
      var rest := Put(o[1..], k, v);
      KeySetAppend([o[0]], o[1..]);
      KeySetAppend([o[0]], rest);
      assert o == [o[0]] + o[1..];
      [o[0]] + rest
  }

  lemma KeySetAppend<V>(a: Obj<V>, b: Obj<V>)
    ensures KeySet(a + b) == KeySet(a) + KeySet(b)
  {
    var ab := a + b;
    forall k | k in KeySet(ab) ensures k in KeySet(a) + KeySet(b) {
      var i :| 0 <= i < |ab| && ab[i].0 == k;
      if i >= |a| {
        assert b[i - |a|] == ab[i];
      }
    }
    forall k | k in KeySet(b) ensures k in KeySet(ab) {
      var i :| 0 <= i < |b| && b[i].0 == k;
      assert ab[|a| + i] == b[i];
    }
    forall k | k in KeySet(a) ensures k in KeySet(ab) {
      var i :| 0 <= i < |a| && a[i].0 == k;
      assert ab[i] == a[i];
    }
  }

  /** Assigning an existing key leaves every position's key in place. */
  lemma {:induction false} PutKeepsKeyOrder<V>(o: Obj<V>, k: string, v: V)
    requires k in KeySet(o)
    ensures |Put(o, k, v)| == |o|
    ensures forall i :: 0 <= i < |o| ==> Put(o, k, v)[i].0 == o[i].0
    decreases |o|
  {
    if o[0].0 != k {
      KeySetAppend([o[0]], o[1..]);
      assert o == [o[0]] + o[1..];
      PutKeepsKeyOrder(o[1..], k, v);
    }
  }

  /** Assignment never creates a duplicate key. */
  lemma PutKeepsUnique<V>(o: Obj<V>, k: string, v: V)
    requires UniqueKeys(o)
    ensures UniqueKeys(Put(o, k, v))
  {
    if k in KeySet(o) {
      PutKeepsKeyOrder(o, k, v);
    } else {
      var r := Put(o, k, v);
      forall i, j | 0 <= i < j < |r| ensures r[i].0 != r[j].0 {
        if j == |o| {
          assert r[i] == o[i];
        }
      }
    }
  }

  /** A second assignment to the same key wins outright. */
  lemma {:induction false} PutTwice<V>(o: Obj<V>, k: string, a: V, b: V)
    ensures Put(Put(o, k, a), k, b) == Put(o, k, b)
    decreases |o|
  {
    if o != [] && o[0].0 != k {
      PutTwice(o[1..], k, a, b);
      assert Put(o, k, a)[1..] == Put(o[1..], k, a);
    }
  }

  /** Assigns every entry of `es` in order, as a sequence of `o[k] = v`
      statements (or as `JSON.parse` builds an object) does. */
  function PutAll<V>(o: Obj<V>, es: Obj<V>): Obj<V>
    decreases |es|
  {
    if es == [] then o else PutAll(Put(o, es[0].0, es[0].1), es[1..])
  }

  lemma FreshHead<V>(o: Obj<V>, es: Obj<V>)
    requires es != [] && UniqueKeys(o + es)
    ensures es[0].0 !in KeySet(o)
  {
    forall i | 0 <= i < |o| ensures o[i].0 != es[0].0 {
      assert (o + es)[i] == o[i] && (o + es)[|o|] == es[0];
    }
  }

  /** Assigning entries whose keys are distinct and new appends them. */
  lemma {:induction false} PutAllFresh<V>(o: Obj<V>, es: Obj<V>)
    requires UniqueKeys(o + es)
    ensures PutAll(o, es) == o + es
    decreases |es|
  {
    if es != [] {
      var e := es[0];
      FreshHead(o, es);
      assert (o + [e]) + es[1..] == o + es;
      PutAllFresh(o + [e], es[1..]);
    }
  }
}

=== FILE: json_value.dfy ===
/** A value produced by `JSON.parse`, and the few operations the pages
    apply to the assistant's reply once parsed: property access, truthiness
    and `Object.values`. The parser itself is a parameter of the pages. */
module JsonValue {
  import opened Js

  datatype Json =
    | JNull
    | JBool(b: bool)
    | JNum(n: real)
    | JStr(s: string)
    | JArr(items: seq<Json>)
    | JObj(members: seq<(string, Json)>)

  /** JavaScript truthiness of a parsed value. */
  predicate Truthy(v: Json) {
    match v
    case JNull => false
    case JBool(b) => b
    case JNum(n) => n != 0.0
    case JStr(s) => s != ""
    case _ => true
  }

  /** The outcome of `v.key`. */
  datatype Access = TypeError | Undefined | Defined(value: Json)

  /** `v.key`: `null` throws, a missing key or a primitive gives `undefined`. */
  function Prop(v: Json, key: string): (r: Access)
    ensures r.TypeError? <==> v.JNull?
    ensures r.Defined? ==> v.JObj? && Get(v.members, key) == Some(r.value)
    ensures v.JObj? ==> (r.Defined? <==> key in KeySet(v.members))
    ensures !v.JNull? && !v.JObj? ==> r.Undefined?
  {
    match v
    case JNull => TypeError
    case JObj(ms) =>
      (match Get(ms, key)
       case Some(x) => Defined(x)
       case None => Undefined)
    case _ => Undefined
  }

  /** `Object.values(v)` for a truthy value: a string yields its characters
      as one-character strings, an array its elements, an object its values
      in order, and a number or boolean nothing. */
  function Values(v: Json): (r: seq<Json>)
    ensures v.JStr? ==> |r| == |v.s| && forall i :: 0 <= i < |r| ==> r[i] == JStr([v.s[i]])
    ensures v.JArr? ==> r == v.items
    ensures v.JObj? ==> |r| == |v.members| && forall i :: 0 <= i < |r| ==> r[i] == v.members[i].1
    ensures v.JNum? || v.JBool? || v.JNull? ==> r == []
  {
    match v
    case JStr(s) => seq(|s|, i requires 0 <= i < |s| => JStr([s[i]]))
    case JArr(xs) => xs
    case JObj(ms) => seq(|ms|, i requires 0 <= i < |ms| => ms[i].1)
    case _ => []
  }
}

=== FILE: navigation.dfy ===
/** The side navigation: three flow pages for everyone, six administration
    pages for the ADMIN and POWER roles, then the password page and logout.
    An item is highlighted when the current path starts with its link. */
module Navigation {
  import opened Js

  /** A navigation entry; logout has no link. */
  datatype NavItem = NavItem(caption: string, href: Option<string>)

  const FlowItems: seq<NavItem> := [
    NavItem("提案", Some("/consultations")),
    NavItem("インタビュー", Some("/interviews")),
    NavItem("チャット", Some("/chats"))]

  const AdminItems: seq<NavItem> := [
    NavItem("GPTログ", Some("/gpt-logs")),
    NavItem("APIエンドポイント", Some("/api-endpints")),
    NavItem("RAGデータ", Some("/rag-files")),
    NavItem("システムパラメーター", Some("/system-parameters")),
    NavItem("質問項目", Some("/questions")),
    NavItem("ユーザー", Some("/users"))]

  const AccountItems: seq<NavItem> := [
    NavItem("パスワード", Some("/password")),
    NavItem("ログアウト", None)]

  /** The role the component renders for: `'STANDARD'` when none is given. */
  function EffectiveRole(userRole: Option<string>): string {
    userRole.GetOr("STANDARD")
  }

  predicate ShowsAdminSection(userRole: Option<string>) {
    EffectiveRole(userRole) in ["ADMIN", "POWER"]
  }

  /** The items rendered, in order. */
  function VisibleItems(userRole: Option<string>): (r: seq<NavItem>)
    ensures |r| >= 5 && r[..3] == FlowItems && r[|r| - 2..] == AccountItems
    ensures ShowsAdminSection(userRole) ==> |r| == 11 && r[3..9] == AdminItems
    ensures !ShowsAdminSection(userRole) ==> |r| == 5
    ensures forall a :: a in AdminItems ==> (a in r <==> userRole == Some("ADMIN") || userRole == Some("POWER"))
  {
    FlowItems + (if ShowsAdminSection(userRole) then AdminItems else []) + AccountItems
  }

  /** `router.pathname.startsWith(href)`; an item without a link is never
      highlighted. */
  predicate Selected(item: NavItem, pathname: string) {
    item.href.Some? && item.href.value <= pathname
  }

  /** A page reached through an item highlights that item, for every role
      that can see it; the link-less logout item is never highlighted. */
  lemma SelectedOnOwnPage(userRole: Option<string>, i: nat, rest: string)
    requires i < |VisibleItems(userRole)|
    ensures var item := VisibleItems(userRole)[i];
      item.href.Some? ==> Selected(item, item.href.value + rest)
    ensures var item := VisibleItems(userRole)[i];
      item.href.None? ==> item == NavItem("ログアウト", None) && forall p :: !Selected(item, p)
  {
  }

  /** A role without the admin section sees none of its links, even when it
      is on one of their paths. */
  lemma StandardRoleSeesNoAdminLink(userRole: Option<string>, pathname: string)
    requires !ShowsAdminSection(userRole)
    ensures forall item :: item in VisibleItems(userRole) && Selected(item, pathname) ==>
      item in FlowItems || item in AccountItems
  {
  }
}

=== FILE: new_consultation.dfy ===
/** The new-consultation page: the user picks one choice per question and
    adds free text; submitting turns the picks into prompt text and a
    question-to-choice object, asks the endpoint for proposals, stores the
    consultation with both messages and posts each proposal the reply
    lists. The page catches nothing: a failing call stops the submission
    where it is. */
module NewConsultation {
  import opened Js
  import opened Domain
  import JsonValue
  import FlatJson
  import PromptDisplay
  import GptLogging

  const UseCase: string := "相談作成"

  /** The form field a question's buttons write to. */
  const FieldPrefix: string := "selectedChoices."

  datatype Choice = Choice(id: nat, name: string, prompt: string, questionName: string)

  datatype Question = Question(name: string, choices: seq<Choice>)

  /** `questions.flatMap((question) => question.choices)`. */
  function AllChoices(qs: seq<Question>): (r: seq<Choice>)
    ensures forall i, c :: 0 <= i < |qs| && c in qs[i].choices ==> c in r
    ensures forall c :: c in r ==> exists i :: 0 <= i < |qs| && c in qs[i].choices
  {
    if qs == [] then []
    else
      var rest := AllChoices(qs[1..]);
      assert forall c :: c in rest ==> exists i :: 0 <= i < |qs| && c in qs[i].choices by {
        forall c | c in rest ensures exists i :: 0 <= i < |qs| && c in qs[i].choices {
          var j :| 0 <= j < |qs[1..]| && c in qs[1..][j].choices;
          assert qs[j + 1] == qs[1..][j];
        }
      }
      qs[0].choices + rest
  }

  /** `c` sits at index `i` of `all`, its id reads `selectedId`, and no
      earlier choice's does. */
  predicate FirstMatchAt(all: seq<Choice>, selectedId: string, i: int, c: Choice) {
    && 0 <= i < |all| && all[i] == c
    && NatToString(c.id) == selectedId
    && forall k :: 0 <= k < i ==> NatToString(all[k].id) != selectedId
  }

  /** `allChoices.find((choice) => choice.id.toString() === selectedChoiceId)`. */
  function FindChoice(all: seq<Choice>, selectedId: string): (r: Option<Choice>)
    ensures r.None? <==> forall c :: c in all ==> NatToString(c.id) != selectedId
    ensures r.Some? ==> exists i :: FirstMatchAt(all, selectedId, i, r.value)
  {
    if all == [] then None
    else if NatToString(all[0].id) == selectedId then
      assert FirstMatchAt(all, selectedId, 0, all[0]);
      Some(all[0])
    else
      var r := FindChoice(all[1..], selectedId);
      assert r.Some? ==> exists i :: FirstMatchAt(all, selectedId, i, r.value) by {
        if r.Some? {
          var i :| FirstMatchAt(all[1..], selectedId, i, r.value);
          assert all[i + 1] == r.value;
          forall k | 0 <= k < i + 1 ensures NatToString(all[k].id) != selectedId {
            if k > 0 { assert all[k] == all[1..][k - 1]; }
          }
          assert FirstMatchAt(all, selectedId, i + 1, r.value);
        }
      }
      r
  }

  /** The prompt text the picks contribute: each matched choice's prompt and
      a newline, in pick order. */
  function PromptsOf(all: seq<Choice>, ids: seq<string>): string
    decreases |ids|
  {
    if ids == [] then ""
    else
      PromptsOf(all, ids[..|ids| - 1]) + PickText(all, ids[|ids| - 1])
  }

  /** What one pick adds to the prompt text. */
  function PickText(all: seq<Choice>, id: string): string {
    match FindChoice(all, id)
    case Some(c) => c.prompt + "\n"
    case None => ""
  }

  /** `choicesJson[choice.questionName] = choice.name` for each matched pick,
      in pick order. */
  function ChoicesOf(all: seq<Choice>, ids: seq<string>): (r: Obj<string>)
    ensures UniqueKeys(r)
    ensures forall k :: k in KeySet(r) ==> exists c :: c in all && c.questionName == k
    decreases |ids|
  {
    if ids == [] then []
    else
      var o := ChoicesOf(all, ids[..|ids| - 1]);
      match FindChoice(all, ids[|ids| - 1])
      case Some(c) => PutKeepsUnique(o, c.questionName, c.name); Put(o, c.questionName, c.name)
      case None => o
  }

  /** `Object.values(data.selectedChoices)` when the form holds any pick. */
  function SelectedIds(selected: Option<Obj<string>>): (r: seq<string>)
    ensures selected.Some? ==>
      && |r| == |selected.value|
      && forall i :: 0 <= i < |r| ==> r[i] == selected.value[i].1
    ensures selected.None? ==> r == []
  {
    match selected
    case None => []
    case Some(o) => seq(|o|, i requires 0 <= i < |o| => o[i].1)
  }

  /** The user message: the picks' prompts, then the free text (an absent
      free text is rendered "undefined", as `+=` does). */
  function UserInputs(qs: seq<Question>, selected: Option<Obj<string>>, detail: Option<string>): (r: string)
    ensures selected.None? ==> r == Template(detail)
    ensures |r| >= |Template(detail)| && r[|r| - |Template(detail)|..] == Template(detail)
  {
    PromptsOf(AllChoices(qs), SelectedIds(selected)) + Template(detail)
  }

  /** The loop of `onSubmit` that assembles the message and the
      question-to-choice object. */
  method Assemble(qs: seq<Question>, selected: Option<Obj<string>>, detail: Option<string>)
    returns (userInputs: string, choicesJson: Obj<string>)
    ensures userInputs == UserInputs(qs, selected, detail)
    ensures choicesJson == ChoicesOf(AllChoices(qs), SelectedIds(selected))
  {
    var all := AllChoices(qs);
    var ids := SelectedIds(selected);
    userInputs := "";
    choicesJson := [];
    var i := 0;
    while i < |ids|
      invariant 0 <= i <= |ids|
      invariant userInputs == PromptsOf(all, ids[..i])
      invariant choicesJson == ChoicesOf(all, ids[..i])
    {
      assert ids[..i + 1][..i] == ids[..i];
      var matching := FindChoice(all, ids[i]);
      if matching.Some? {
        userInputs := userInputs + matching.value.prompt + "\n";
        choicesJson := Put(choicesJson, matching.value.questionName, matching.value.name);
      }
      i := i + 1;
    }
    assert ids[..|ids|] == ids;
    userInputs := userInputs + Template(detail);
  }

  /** The last pick of a non-empty run adds its text last, also after an
      earlier run. */
  lemma PromptsOfLast(all: seq<Choice>, a: seq<string>, b: seq<string>)
    requires b != []
    ensures PromptsOf(all, b) == PromptsOf(all, b[..|b| - 1]) + PickText(all, b[|b| - 1])
    ensures PromptsOf(all, a + b) == PromptsOf(all, a + b[..|b| - 1]) + PickText(all, b[|b| - 1])
  {
    assert (a + b)[..|a + b| - 1] == a + b[..|b| - 1];
    assert (a + b)[|a + b| - 1] == b[|b| - 1];
  }

  /** The prompt text is built piecewise: picks made in two runs give the
      two runs' texts in order. */
  lemma {:induction false} PromptsOfConcat(all: seq<Choice>, a: seq<string>, b: seq<string>)
    ensures PromptsOf(all, a + b) == PromptsOf(all, a) + PromptsOf(all, b)
    decreases |b|
  {
    if b != [] {
      PromptsOfLast(all, a, b);
      PromptsOfConcat(all, a, b[..|b| - 1]);
    } else {
      assert a + b == a;
    }
  }

  /** A pick that matches no choice contributes nothing, wherever it
      occurs: neither prompt text nor an entry of the object. */
  lemma UnmatchedPickIgnored(all: seq<Choice>, a: seq<string>, x: string, b: seq<string>)
    requires FindChoice(all, x).None?
    ensures PromptsOf(all, a + [x] + b) == PromptsOf(all, a + b)
    ensures ChoicesOf(all, a + [x] + b) == ChoicesOf(all, a + b)
  {
    PromptsOfConcat(all, a + [x], b);
    PromptsOfConcat(all, a, [x]);
    PromptsOfConcat(all, a, b);
    assert [x][..0] == [];
    UnmatchedPickNoEntry(all, a, x, b);
  }

  /** The object half of `UnmatchedPickIgnored`, by induction on the picks
      after the unmatched one. */
  lemma {:induction false} UnmatchedPickNoEntry(all: seq<Choice>, a: seq<string>, x: string, b: seq<string>)
    requires FindChoice(all, x).None?
    ensures ChoicesOf(all, a + [x] + b) == ChoicesOf(all, a + b)
    decreases |b|
  {
    if b == [] {
      assert (a + [x] + b)[..|a|] == a;
      assert a + b == a;
    } else {
      var init := b[..|b| - 1];
      assert (a + [x] + b)[..|a + [x] + b| - 1] == a + [x] + init;
      assert (a + [x] + b)[|a + [x] + b| - 1] == b[|b| - 1];
      assert (a + b)[..|a + b| - 1] == a + init;
      assert (a + b)[|a + b| - 1] == b[|b| - 1];
      UnmatchedPickNoEntry(all, a, x, init);
    }
  }

  /** The pick `id` matches a choice of question `name`. */
  predicate MatchesQuestion(all: seq<Choice>, id: string, name: string) {
    FindChoice(all, id).Some? && FindChoice(all, id).value.questionName == name
  }

  /** Some element satisfies `p` iff one before the last does or the last
      one does. */
  lemma ExistsSplit<T>(xs: seq<T>, init: seq<T>, p: T -> bool)
    requires xs != [] && init == xs[..|xs| - 1]
    ensures (exists j :: 0 <= j < |xs| && p(xs[j])) <==>
      (exists j :: 0 <= j < |init| && p(init[j])) || p(xs[|xs| - 1])
  {
    if exists j :: 0 <= j < |init| && p(init[j]) {
      var j :| 0 <= j < |init| && p(init[j]);
      assert xs[j] == init[j];
    }
    if exists j :: 0 <= j < |xs| && p(xs[j]) {
      var j :| 0 <= j < |xs| && p(xs[j]);
      if j < |init| {
        assert init[j] == xs[j];
      }
    }
  }

  /** The object's questions are exactly those of the picks that match a
      choice. */
  lemma {:induction false} ChoiceKeysFromPicks(all: seq<Choice>, ids: seq<string>)
    ensures forall k :: k in KeySet(ChoicesOf(all, ids)) <==>
      exists j :: 0 <= j < |ids| && MatchesQuestion(all, ids[j], k)
    decreases |ids|
  {
    if ids != [] {
      var init := ids[..|ids| - 1];
      var last := FindChoice(all, ids[|ids| - 1]);
      ChoiceKeysFromPicks(all, init);
      assert KeySet(ChoicesOf(all, ids)) ==
        if last.Some? then KeySet(ChoicesOf(all, init)) + {last.value.questionName}
        else KeySet(ChoicesOf(all, init));
      forall k ensures k in KeySet(ChoicesOf(all, ids)) <==>
        exists j :: 0 <= j < |ids| && MatchesQuestion(all, ids[j], k)
      {
        var p := (id: string) => MatchesQuestion(all, id, k);
        ExistsSplit(ids, init, p);
        assert forall j :: 0 <= j < |ids| ==> p(ids[j]) == MatchesQuestion(all, ids[j], k);
        assert forall j :: 0 <= j < |init| ==> p(init[j]) == MatchesQuestion(all, init[j], k);
      }
    }
  }

  /** The last matched pick for a question decides its entry: later picks
      for the same question overwrite earlier ones. */
  lemma {:induction false} LastPickWins(all: seq<Choice>, ids: seq<string>, j: nat, c: Choice)
    requires j < |ids| && FindChoice(all, ids[j]) == Some(c)
    requires forall k :: j < k < |ids| ==>
      FindChoice(all, ids[k]).None? || FindChoice(all, ids[k]).value.questionName != c.questionName
    ensures Get(ChoicesOf(all, ids), c.questionName) == Some(c.name)
    decreases |ids|
  {
    var init := ids[..|ids| - 1];
    if j < |ids| - 1 {
      forall k | j < k < |init|
        ensures FindChoice(all, init[k]).None? || FindChoice(all, init[k]).value.questionName != c.questionName
      {
        assert init[k] == ids[k];
      }
      assert init[j] == ids[j];
      LastPickWins(all, init, j, c);
    }
  }

  // ---------------------------------------------------------------------
  // The "all questions answered" gate.

  /** What the page records per button press: the field name and the picked
      id (never null in practice, though the type allows it). */
  type Selections = Obj<Option<string>>

  /** `handleSelectionChange`. */
  function SelectChoice(state: Selections, q: Question, id: string): (r: Selections)
    ensures Get(r, FieldPrefix + q.name) == Some(Some(id))
  {
    Put(state, FieldPrefix + q.name, Some(id))
  }

  /** The effect computing `isAllSelected`. */
  predicate IsAllSelected(state: Selections, qs: seq<Question>) {
    |state| == |qs| && forall i :: 0 <= i < |state| ==> state[i].1.Some?
  }

  function FieldNames(qs: seq<Question>): set<string> {
    set i | 0 <= i < |qs| :: FieldPrefix + qs[i].name
  }

  predicate DistinctNames(qs: seq<Question>) {
    forall i, j :: 0 <= i < j < |qs| ==> qs[i].name != qs[j].name
  }

  /** The states the buttons can produce: one entry per pressed question. */
  predicate Reachable(state: Selections, qs: seq<Question>) {
    UniqueKeys(state) && KeySet(state) <= FieldNames(qs)
  }

  lemma NoSelectionReachable(qs: seq<Question>)
    ensures Reachable([], qs)
    ensures !IsAllSelected([], qs) <==> qs != []
  {
  }

  /** Pressing a button of one of the page's questions keeps the state
      reachable. */
  lemma SelectChoiceReachable(state: Selections, qs: seq<Question>, j: nat, id: string)
    requires Reachable(state, qs) && j < |qs|
    ensures Reachable(SelectChoice(state, qs[j], id), qs)
  {
    PutKeepsUnique(state, FieldPrefix + qs[j].name, Some(id));
  }

  lemma PrefixInjective(a: string, b: string)
    requires FieldPrefix + a == FieldPrefix + b
    ensures a == b
  {
    assert (FieldPrefix + a)[|FieldPrefix|..] == a;
    assert (FieldPrefix + b)[|FieldPrefix|..] == b;
  }

  lemma FieldNamesCons(qs: seq<Question>)
    requires qs != []
    ensures FieldNames(qs) == {FieldPrefix + qs[0].name} + FieldNames(qs[1..])
  {
    var rest := qs[1..];
    forall x | x in FieldNames(qs) ensures x in {FieldPrefix + qs[0].name} + FieldNames(rest) {
      var i :| 0 <= i < |qs| && x == FieldPrefix + qs[i].name;
      if i > 0 { assert qs[i] == rest[i - 1]; }
    }
    forall x | x in FieldNames(rest) ensures x in FieldNames(qs) {
      var i :| 0 <= i < |rest| && x == FieldPrefix + rest[i].name;
      assert rest[i] == qs[i + 1];
    }
  }

  lemma {:induction false} FieldNamesAtMost(qs: seq<Question>)
    ensures |FieldNames(qs)| <= |qs|
    decreases |qs|
  {
    if qs != [] {
      FieldNamesAtMost(qs[1..]);
      FieldNamesCons(qs);
    }
  }

  /** Dropping a question whose name an earlier one shares leaves the
      field names unchanged. */
  lemma FieldNamesDropDuplicate(qs: seq<Question>, i: nat, j: nat)
    requires i < j < |qs| && qs[i].name == qs[j].name
    ensures FieldNames(qs) == FieldNames(qs[..j] + qs[j + 1..])
  {
    var d := qs[..j] + qs[j + 1..];
    forall x | x in FieldNames(qs) ensures x in FieldNames(d) {
      var k :| 0 <= k < |qs| && x == FieldPrefix + qs[k].name;
      if k < j { assert d[k] == qs[k]; }
      else if k == j { assert d[i] == qs[i]; }
      else { assert d[k - 1] == qs[k]; }
    }
    forall x | x in FieldNames(d) ensures x in FieldNames(qs) {
      var m :| 0 <= m < |d| && x == FieldPrefix + d[m].name;
      if m < j { assert d[m] == qs[m]; }
      else { assert d[m] == qs[m + 1]; }
    }
  }

  /** Two questions sharing a name share one field, so the state never has
      as many entries as there are questions and the gate never opens. */
  lemma DuplicateNameBlocksGate(state: Selections, qs: seq<Question>, i: nat, j: nat)
    requires Reachable(state, qs) && i < j < |qs| && qs[i].name == qs[j].name
    ensures !IsAllSelected(state, qs)
  {
    FieldNamesDropDuplicate(qs, i, j);
    FieldNamesAtMost(qs[..j] + qs[j + 1..]);
    KeySetCard(state);
    SubsetCard(KeySet(state), FieldNames(qs));
  }

  lemma {:induction false} FieldNamesCard(qs: seq<Question>)
    requires DistinctNames(qs)
    ensures |FieldNames(qs)| == |qs|
    decreases |qs|
  {
    if qs != [] {
      var rest := qs[1..];
      FieldNamesCard(rest);
      FieldNamesCons(qs);
      if FieldPrefix + qs[0].name in FieldNames(rest) {
        var i :| 0 <= i < |rest| && FieldPrefix + qs[0].name == FieldPrefix + rest[i].name;
        PrefixInjective(qs[0].name, rest[i].name);
        assert false;
      }
    }
  }

  lemma {:induction false} SubsetCard(a: set<string>, b: set<string>)
    requires a <= b
    ensures |a| <= |b|
    decreases |a|
  {
    if a != {} {
      var x :| x in a;
      SubsetCard(a - {x}, b - {x});
    }
  }

  lemma SubsetCardEqual(a: set<string>, b: set<string>)
    requires a <= b && |a| == |b|
    ensures a == b
  {
    if a != b {
      var x :| x in b && x !in a;
      SubsetCard(a, b - {x});
    }
  }

  /** Every question has a pick recorded. */
  predicate EveryQuestionAnswered(state: Selections, qs: seq<Question>) {
    forall j :: 0 <= j < |qs| ==> Get(state, FieldPrefix + qs[j].name).Some?
  }

  lemma AnsweredMeansAllFields(state: Selections, qs: seq<Question>)
    ensures EveryQuestionAnswered(state, qs) <==> FieldNames(qs) <= KeySet(state)
  {
    if EveryQuestionAnswered(state, qs) {
      forall x | x in FieldNames(qs) ensures x in KeySet(state) {
        var j :| 0 <= j < |qs| && x == FieldPrefix + qs[j].name;
        assert Get(state, FieldPrefix + qs[j].name).Some?;
      }
    }
    if FieldNames(qs) <= KeySet(state) {
      forall j | 0 <= j < |qs| ensures Get(state, FieldPrefix + qs[j].name).Some? {
        assert FieldPrefix + qs[j].name in FieldNames(qs);
      }
    }
  }

  /** For a reachable state over questions with distinct names, the gate
      opens exactly when every question has a non-null pick. */
  lemma AllSelectedIffEveryQuestionAnswered(state: Selections, qs: seq<Question>)
    requires Reachable(state, qs) && DistinctNames(qs)
    ensures IsAllSelected(state, qs) <==>
      EveryQuestionAnswered(state, qs) && forall i :: 0 <= i < |state| ==> state[i].1.Some?
  {
    KeySetCard(state);
    FieldNamesCard(qs);
    AnsweredMeansAllFields(state, qs);
    if |state| == |qs| {
      SubsetCardEqual(KeySet(state), FieldNames(qs));
    }
    if FieldNames(qs) <= KeySet(state) {
      assert KeySet(state) == FieldNames(qs);
    }
  }

  // ---------------------------------------------------------------------
  // Submission.

  /** A value of the consultation-creation body. */
  datatype Field = Str(s: string) | Int(n: int)

  /** `o[k] = v` when `v` is defined; an undefined value does not survive
      `JSON.stringify`, so the route never sees the key. */
  function PutDefined(o: Obj<Field>, k: string, v: Option<string>): Obj<Field> {
    if v.Some? then Put(o, k, Str(v.value)) else o
  }

  /** The key under which the page sends the retrieval log, and the key
      under which the consultations route reads it. */
  const SentLogKey: string := "agentLogs"
  const ReadLogKey: string := "agentLog"

  /** `consultationCreateParams`, with the log under `logKey`. */
  function CreateBody(logKey: string, choicesJson: Obj<string>, content: string, ep: ApiEndpoint,
                      agentLogs: Option<string>, requestId: string, detail: Option<string>): Obj<Field> {
    PutDefined(Put(PutDefined(BodyHead(choicesJson, content, ep), logKey, agentLogs), "requestId", Str(requestId)), "detail", detail)
  }

  /** A string the route reads from the body. */
  function ReadText(body: Obj<Field>, k: string): Option<string> {
    var v := Get(body, k);
    if v.Some? && v.value.Str? then Some(v.value.s) else None
  }

  /** The consultation record's log: the route stores what it reads. */
  function StoredAgentLog(body: Obj<Field>): Option<string> {
    ReadText(body, ReadLogKey)
  }

  /** What the reply's `proposals` gives `jsonObject?.proposals.map`: a null
      reply maps nothing, an array maps its elements, anything else throws. */
  datatype Proposals = NullReply | Items(items: seq<JsonValue.Json>) | NotAList

  function ProposalsOf(v: JsonValue.Json): (r: Proposals)
    ensures r.Items? <==>
      (JsonValue.Prop(v, "proposals").Defined? && JsonValue.Prop(v, "proposals").value.JArr?)
    ensures r.Items? ==> r.items == JsonValue.Prop(v, "proposals").value.items
    ensures r.NullReply? <==> v.JNull?
  {
    if v.JNull? then NullReply
    else
      match JsonValue.Prop(v, "proposals")
      case Defined(JArr(xs)) => Items(xs)
      case _ => NotAList
  }

  datatype Toast = NoToast | Success | Failure

  /** The calls a submission makes, each `None` (or `false`) when it throws:
      the endpoint, `JSON.stringify` of the request, the clock readings,
      the usage-log POST, the creation POST (its status and the new id),
      the message POST and `JSON.parse` of the reply. */
  datatype ConsultIo = ConsultIo(
    callEndpoint: (string, EndpointRequest) -> Option<GptReply>,
    stringify: EndpointRequest -> string,
    startedAt: int,
    endedAt: int,
    postLog: GptLogging.GptLogPayload -> bool,
    createConsultation: Obj<Field> -> Option<(int, int)>,
    postMessage: (int, StoredMessage) -> bool,
    parse: string -> Option<JsonValue.Json>)

  /** What a submission did: the request, the prompts shown, the creation
      body posted, the message and proposal POSTs issued, the toast, the
      page it navigated to, and whether an exception ended it. */
  datatype Outcome = Outcome(
    request: EndpointRequest,
    displayPrompts: Obj<string>,
    body: Option<Obj<Field>>,
    messagePosts: seq<(int, StoredMessage)>,
    proposalPosts: seq<(int, JsonValue.Json)>,
    toast: Toast,
    navigatedTo: Option<int>,
    aborted: bool)

  /** The request sent for a given user message. */
  function RequestOf(ep: ApiEndpoint, requestId: string, userInputs: string): EndpointRequest {
    RequestFor(ep, Some(requestId), [Message(User, userInputs)], None)
  }

  /** Everything after a 200 from the creation POST. */
  function AfterCreate(base: Outcome, id: int, userInputs: string, reply: Message, log: Option<string>,
                       io: ConsultIo): (r: Outcome)
    requires base.messagePosts == [] && base.proposalPosts == []
    ensures r.request == base.request && r.displayPrompts == base.displayPrompts && r.body == base.body
    ensures r.toast == Success
    ensures forall i :: 0 <= i < |r.messagePosts| ==> r.messagePosts[i].0 == id && r.messagePosts[i].1.agentLog == log
    ensures r.navigatedTo.Some? ==>
      && r.navigatedTo == Some(id) && !r.aborted
      && r.messagePosts == [(id, StoredMessage(User, userInputs, log)), (id, StoredMessage(reply.role, reply.content, log))]
    ensures r.proposalPosts != [] ==>
      && io.parse(reply.content).Some?
      && ProposalsOf(io.parse(reply.content).value).Items?
      && var xs := ProposalsOf(io.parse(reply.content).value).items;
         |r.proposalPosts| == |xs| && forall i :: 0 <= i < |xs| ==> r.proposalPosts[i] == (id, xs[i])
    ensures var userPost := (id, StoredMessage(User, userInputs, log));
      && (!io.postMessage(userPost.0, userPost.1) ==> r.messagePosts == [userPost])
      && (io.postMessage(userPost.0, userPost.1) ==>
            r.messagePosts == [userPost, (id, StoredMessage(reply.role, reply.content, log))])
    ensures r.aborted <==> r.navigatedTo.None?
    ensures r.navigatedTo.Some? <==>
      && io.postMessage(id, StoredMessage(User, userInputs, log))
      && io.postMessage(id, StoredMessage(reply.role, reply.content, log))
      && io.parse(reply.content).Some?
      && !ProposalsOf(io.parse(reply.content).value).NotAList?
    ensures r.navigatedTo.Some? ==>
      var proposals := ProposalsOf(io.parse(reply.content).value);
      && (proposals.NullReply? ==> r.proposalPosts == [])
      && (proposals.Items? ==>
            && |r.proposalPosts| == |proposals.items|
            && forall i :: 0 <= i < |proposals.items| ==> r.proposalPosts[i] == (id, proposals.items[i]))
  {
    var userPost := (id, StoredMessage(User, userInputs, log));
    var replyPost := (id, StoredMessage(reply.role, reply.content, log));
    var created := base.(toast := Success, navigatedTo := None, aborted := false);
    if !io.postMessage(userPost.0, userPost.1) then created.(messagePosts := [userPost], aborted := true)
    else if !io.postMessage(replyPost.0, replyPost.1) then created.(messagePosts := [userPost, replyPost], aborted := true)
    else
      var posted := created.(messagePosts := [userPost, replyPost]);
      match io.parse(reply.content)
      case None => posted.(aborted := true)
      case Some(v) =>
        match ProposalsOf(v)
        case NotAList => posted.(aborted := true)
        case NullReply => posted.(navigatedTo := Some(id))
        case Items(xs) =>
          posted.(proposalPosts := seq(|xs|, i requires 0 <= i < |xs| => (id, xs[i])), navigatedTo := Some(id))
  }

  /** The endpoint's reply, when it answered and its usage log went
      through: what the rest of the submission works on. */
  function LoggedReply(request: EndpointRequest, ep: ApiEndpoint, vendor: string, io: ConsultIo)
    : (r: Option<GptReply>)
    ensures r.Some? <==>
      && io.callEndpoint(ep.url, request).Some?
      && GptLogging.LogGptData(io.callEndpoint(ep.url, request).value, io.stringify(request), io.startedAt,
                               io.endedAt, vendor, UseCase, ep.name, io.postLog).Logged?
    ensures r.Some? ==> r == io.callEndpoint(ep.url, request) && |r.value.data.choices| > 0
  {
    match io.callEndpoint(ep.url, request)
    case None => None
    case Some(reply) =>
      if GptLogging.LogGptData(reply, io.stringify(request), io.startedAt, io.endedAt, vendor, UseCase,
                               ep.name, io.postLog).Logged? then Some(reply)
      else None
  }

  /** The creation POST of the body `posted` carries, and what follows
      it; the request, the prompts shown and the body are kept. */
  function Create(posted: Outcome, userInputs: string, answer: Message, io: ConsultIo): (r: Outcome)
    requires posted.body.Some? && posted.messagePosts == [] && posted.proposalPosts == []
    requires posted.toast == NoToast && posted.navigatedTo.None? && posted.aborted
    ensures r.request == posted.request && r.displayPrompts == posted.displayPrompts && r.body == posted.body
    ensures r.messagePosts != [] ==>
      && r.toast == Success
      && forall i :: 0 <= i < |r.messagePosts| ==> r.messagePosts[i].1.agentLog == StoredAgentLog(r.body.value)
    ensures r.toast == NoToast ==> r.aborted && r.messagePosts == []
    ensures r.navigatedTo.Some? ==>
      && !r.aborted && |r.messagePosts| == 2
      && r.messagePosts[0].1 == StoredMessage(User, userInputs, StoredAgentLog(r.body.value))
  {
    match io.createConsultation(posted.body.value)
    case None => posted
    case Some((status, id)) =>
      if status != 200 then posted.(toast := Failure, aborted := false)
      else AfterCreate(posted, id, userInputs, answer, StoredAgentLog(posted.body.value), io)
  }

  /** `onSubmit`, with the log sent under `logKey`. */
  function Run(logKey: string, qs: seq<Question>, selected: Option<Obj<string>>, detail: Option<string>,
               ep: ApiEndpoint, requestId: string, vendor: string, io: ConsultIo): (r: Outcome)
    ensures var userInputs := UserInputs(qs, selected, detail);
      && r.request == RequestOf(ep, requestId, userInputs)
      && r.displayPrompts == PromptDisplay.WithUserInput(userInputs, ep)
    ensures r.body.Some? ==>
      && var reply := io.callEndpoint(ep.url, r.request);
      && reply.Some? && |reply.value.data.choices| > 0
      && r.body == Some(CreateBody(logKey, ChoicesOf(AllChoices(qs), SelectedIds(selected)),
                                   reply.value.data.choices[0].content, ep, reply.value.data.agentLogs,
                                   requestId, detail))
    ensures r.messagePosts != [] ==>
      && r.body.Some? && r.toast == Success
      && forall i :: 0 <= i < |r.messagePosts| ==> r.messagePosts[i].1.agentLog == StoredAgentLog(r.body.value)
    ensures r.toast == NoToast ==> r.aborted && r.messagePosts == []
    ensures r.navigatedTo.Some? ==>
      && r.body.Some? && !r.aborted && |r.messagePosts| == 2
      && r.messagePosts[0].1 == StoredMessage(User, UserInputs(qs, selected, detail), StoredAgentLog(r.body.value))
  {
    var all := AllChoices(qs);
    var ids := SelectedIds(selected);
    var userInputs := UserInputs(qs, selected, detail);
    var request := RequestOf(ep, requestId, userInputs);
    var halted := Outcome(request, PromptDisplay.WithUserInput(userInputs, ep), None, [], [], NoToast, None, true);
    match LoggedReply(request, ep, vendor, io)
    case None => halted
    case Some(reply) =>
      var answer := reply.data.choices[0];
      var body := CreateBody(logKey, ChoicesOf(all, ids), answer.content, ep, reply.data.agentLogs, requestId, detail);
      Create(halted.(body := Some(body)), userInputs, answer, io)
  }

  /** The page as written: the log goes under `agentLogs`. */
  function Submit(qs: seq<Question>, selected: Option<Obj<string>>, detail: Option<string>,
                  ep: ApiEndpoint, requestId: string, vendor: string, io: ConsultIo): (r: Outcome)
    ensures r.body.Some? ==> StoredAgentLog(r.body.value).None?
  {
    RunBodyLog(SentLogKey, qs, selected, detail, ep, requestId, vendor, io);
    Run(SentLogKey, qs, selected, detail, ep, requestId, vendor, io)
  }

  /** Under the key the route reads, the log is stored. */
  function SubmitCorrected(qs: seq<Question>, selected: Option<Obj<string>>, detail: Option<string>,
                           ep: ApiEndpoint, requestId: string, vendor: string, io: ConsultIo): (r: Outcome)
    ensures r.body.Some? ==>
      && LoggedReply(r.request, ep, vendor, io).Some?
      && StoredAgentLog(r.body.value) == LoggedReply(r.request, ep, vendor, io).value.data.agentLogs
  {
    RunBodyLog(ReadLogKey, qs, selected, detail, ep, requestId, vendor, io);
    Run(ReadLogKey, qs, selected, detail, ep, requestId, vendor, io)
  }

  /** The fields of the body before the log. */
  function BodyHead(choicesJson: Obj<string>, content: string, ep: ApiEndpoint): (r: Obj<Field>)
    ensures ReadText(r, "choices") == Some(FlatJson.Stringify(choicesJson))
    ensures ReadText(r, "jsonText") == Some(content)
    ensures Get(r, ReadLogKey).None?
  {
    var b0 := Put([], "choices", Str(FlatJson.Stringify(choicesJson)));
    var b1 := Put(b0, "jsonText", Str(content));
    assert Get(b1, "choices") == Some(Str(FlatJson.Stringify(choicesJson)));
    Put(b1, "apiEndpointId", Int(ep.id))
  }

  /** Later fields do not disturb the ones the route reads. */
  lemma BodyTailKeeps(head: Obj<Field>, logKey: string, agentLogs: Option<string>, requestId: string,
                      detail: Option<string>, k: string)
    requires k != logKey && k != "requestId" && k != "detail"
    ensures Get(PutDefined(Put(PutDefined(head, logKey, agentLogs), "requestId", Str(requestId)), "detail", detail), k)
      == Get(head, k)
  {
  }

  /** The route reads back the choices and the reply the page put in. */
  lemma CreateBodyFields(logKey: string, choicesJson: Obj<string>, content: string, ep: ApiEndpoint,
                         agentLogs: Option<string>, requestId: string, detail: Option<string>)
    requires logKey == SentLogKey || logKey == ReadLogKey
    ensures var body := CreateBody(logKey, choicesJson, content, ep, agentLogs, requestId, detail);
      && ReadText(body, "choices") == Some(FlatJson.Stringify(choicesJson))
      && ReadText(body, "jsonText") == Some(content)
  {
    var head := BodyHead(choicesJson, content, ep);
    BodyTailKeeps(head, logKey, agentLogs, requestId, detail, "choices");
    BodyTailKeeps(head, logKey, agentLogs, requestId, detail, "jsonText");
  }

  /** What the route stores as the log, for the key the log is sent under. */
  lemma CreateBodyLog(logKey: string, choicesJson: Obj<string>, content: string, ep: ApiEndpoint,
                      agentLogs: Option<string>, requestId: string, detail: Option<string>)
    requires logKey == SentLogKey || logKey == ReadLogKey
    ensures StoredAgentLog(CreateBody(logKey, choicesJson, content, ep, agentLogs, requestId, detail))
      == if logKey == ReadLogKey then agentLogs else None
  {
    var b3 := PutDefined(BodyHead(choicesJson, content, ep), logKey, agentLogs);
    var b4 := Put(b3, "requestId", Str(requestId));
    var b5 := PutDefined(b4, "detail", detail);
    assert Get(b5, ReadLogKey) == Get(b4, ReadLogKey) == Get(b3, ReadLogKey);
  }

  /** A submission whose endpoint call or usage log throws posts nothing
      and shows no toast. */
  lemma RunHaltsWithoutReply(logKey: string, qs: seq<Question>, selected: Option<Obj<string>>,
                             detail: Option<string>, ep: ApiEndpoint, requestId: string, vendor: string,
                             io: ConsultIo)
    ensures var r := Run(logKey, qs, selected, detail, ep, requestId, vendor, io);
      LoggedReply(r.request, ep, vendor, io).None? ==>
        && r.body.None? && r.aborted && r.toast == NoToast
        && r.messagePosts == [] && r.proposalPosts == [] && r.navigatedTo.None?
  {
  }

  /** Once the endpoint answered and its usage was logged, the creation
      body is built from the first choice and the reply's retrieval log. */
  lemma RunPostsReplyBody(logKey: string, qs: seq<Question>, selected: Option<Obj<string>>,
                          detail: Option<string>, ep: ApiEndpoint, requestId: string, vendor: string,
                          io: ConsultIo)
    ensures var r := Run(logKey, qs, selected, detail, ep, requestId, vendor, io);
      var reply := LoggedReply(r.request, ep, vendor, io);
      reply.Some? ==>
        r.body == Some(CreateBody(logKey, ChoicesOf(AllChoices(qs), SelectedIds(selected)),
                                  reply.value.data.choices[0].content, ep, reply.value.data.agentLogs,
                                  requestId, detail))
  {
  }

  /** What follows the creation POST: nothing when it throws, a failure
      toast on a non-200 status, and on a 200 exactly the message and
      proposal POSTs of `AfterCreate` for the new consultation's id. */
  lemma RunAfterCreation(logKey: string, qs: seq<Question>, selected: Option<Obj<string>>,
                         detail: Option<string>, ep: ApiEndpoint, requestId: string, vendor: string,
                         io: ConsultIo)
    ensures var r := Run(logKey, qs, selected, detail, ep, requestId, vendor, io);
      r.body.Some? ==>
        var created := io.createConsultation(r.body.value);
        && (created.None? ==> r.aborted && r.toast == NoToast && r.messagePosts == [])
        && (created.Some? && created.value.0 != 200 ==>
              && r.toast == Failure && !r.aborted && r.messagePosts == [] && r.navigatedTo.None?)
        && (created.Some? && created.value.0 == 200 ==>
              && LoggedReply(r.request, ep, vendor, io).Some?
              && r == AfterCreate(Outcome(r.request, r.displayPrompts, r.body, [], [], NoToast, None, true),
                                  created.value.1, UserInputs(qs, selected, detail),
                                  LoggedReply(r.request, ep, vendor, io).value.data.choices[0],
                                  StoredAgentLog(r.body.value), io))
  {
  }

  /** The log the consultation record stores: the reply's retrieval log
      under the key the route reads, nothing under any other key. */
  lemma RunBodyLog(logKey: string, qs: seq<Question>, selected: Option<Obj<string>>,
                   detail: Option<string>, ep: ApiEndpoint, requestId: string, vendor: string,
                   io: ConsultIo)
    requires logKey == SentLogKey || logKey == ReadLogKey
    ensures var r := Run(logKey, qs, selected, detail, ep, requestId, vendor, io);
      r.body.Some? ==>
        && LoggedReply(r.request, ep, vendor, io).Some?
        && StoredAgentLog(r.body.value) ==
             if logKey == ReadLogKey then LoggedReply(r.request, ep, vendor, io).value.data.agentLogs else None
  {
    var r := Run(logKey, qs, selected, detail, ep, requestId, vendor, io);
    RunHaltsWithoutReply(logKey, qs, selected, detail, ep, requestId, vendor, io);
    RunPostsReplyBody(logKey, qs, selected, detail, ep, requestId, vendor, io);
    if r.body.Some? {
      var reply := LoggedReply(r.request, ep, vendor, io).value;
      CreateBodyLog(logKey, ChoicesOf(AllChoices(qs), SelectedIds(selected)),
                    reply.data.choices[0].content, ep, reply.data.agentLogs, requestId, detail);
    }
  }

  /** The log each stored message carries: the reply's retrieval log under
      the key the route reads, nothing under any other key. */
  lemma RunStoredLog(logKey: string, qs: seq<Question>, selected: Option<Obj<string>>,
                     detail: Option<string>, ep: ApiEndpoint, requestId: string, vendor: string,
                     io: ConsultIo)
    requires logKey == SentLogKey || logKey == ReadLogKey
    ensures var r := Run(logKey, qs, selected, detail, ep, requestId, vendor, io);
      r.messagePosts != [] ==>
        && LoggedReply(r.request, ep, vendor, io).Some?
        && forall i :: 0 <= i < |r.messagePosts| ==>
             r.messagePosts[i].1.agentLog ==
               if logKey == ReadLogKey then LoggedReply(r.request, ep, vendor, io).value.data.agentLogs else None
  {
    RunBodyLog(logKey, qs, selected, detail, ep, requestId, vendor, io);
  }

  /** As written, the retrieval log never reaches the record, so both
      stored messages carry no log even when the reply has one. */
  lemma AgentLogLost(qs: seq<Question>, selected: Option<Obj<string>>, detail: Option<string>,
                     ep: ApiEndpoint, requestId: string, vendor: string, io: ConsultIo)
    ensures var r := Submit(qs, selected, detail, ep, requestId, vendor, io);
      forall i :: 0 <= i < |r.messagePosts| ==> r.messagePosts[i].1.agentLog.None?
  {
    RunStoredLog(SentLogKey, qs, selected, detail, ep, requestId, vendor, io);
  }

  /** With the key the route reads, both stored messages carry the reply's
      retrieval log. */
  lemma AgentLogKept(qs: seq<Question>, selected: Option<Obj<string>>, detail: Option<string>,
                     ep: ApiEndpoint, requestId: string, vendor: string, io: ConsultIo)
    ensures var r := SubmitCorrected(qs, selected, detail, ep, requestId, vendor, io);
      r.messagePosts != [] ==>
        && io.callEndpoint(ep.url, r.request).Some?
        && forall i :: 0 <= i < |r.messagePosts| ==>
             r.messagePosts[i].1.agentLog == io.callEndpoint(ep.url, r.request).value.data.agentLogs
  {
    RunStoredLog(ReadLogKey, qs, selected, detail, ep, requestId, vendor, io);
  }

  /** The `choices` column reads back as the question-to-choice object the
      picks produced. */
  lemma ChoicesReadBack(logKey: string, qs: seq<Question>, selected: Option<Obj<string>>, content: string,
                        ep: ApiEndpoint, agentLogs: Option<string>, requestId: string, detail: Option<string>)
    requires logKey == SentLogKey || logKey == ReadLogKey
    ensures var choicesJson := ChoicesOf(AllChoices(qs), SelectedIds(selected));
      var body := CreateBody(logKey, choicesJson, content, ep, agentLogs, requestId, detail);
      ReadText(body, "choices").Some? && FlatJson.Parse(ReadText(body, "choices").value) == Some(choicesJson)
  {
    var choicesJson := ChoicesOf(AllChoices(qs), SelectedIds(selected));
    CreateBodyFields(logKey, choicesJson, content, ep, agentLogs, requestId, detail);
    FlatJson.ParseStringify(choicesJson);
  }
}

=== FILE: openai.dfy ===
/** The OpenAI client: the model name comes from the `OpenAiModelName`
    system parameter or the environment, and one POST to
    `/chat/completions` carries the model and the concatenated messages. */
module OpenAi {
  import opened Js
  import opened Domain
  import SystemParameters

  const BaseUrl: string := "https://api.openai.com/v1"
  const CompletionsPath: string := "/chat/completions"

  /** `getOpenAiModelName`. */
  function ModelName(env: Env, lookup: ParameterLookup): (r: Option<string>)
    ensures lookup.Record? && lookup.value != "" ==> r == Some(lookup.value)
    ensures lookup.NoRecord? || lookup == Record("") ==> r == env.openAiModelName
    ensures lookup.LookupFailed? ==> r == None
  {
    SystemParameters.Resolve(lookup, env.openAiModelName)
  }

  /** The agent the client is created with: the proxy agent when proxy
      mode is on, none otherwise. */
  function ClientAgent(env: Env): Agent {
    if UseProxy(env) then ProxyAgent else NoAgent
  }

  /** The POST `openaiCompletion` issues, or `None` when building its body
      throws (a missing `conversations`). */
  function Request(env: Env, lookup: ParameterLookup, systemPrompts: Option<seq<Message>>,
                   conversations: Option<seq<Message>>): (r: Option<ProviderPost>)
    ensures r.Some? <==> conversations.Some?
    ensures r.Some? ==> r.value.baseUrl == BaseUrl && r.value.path == CompletionsPath
    ensures r.Some? ==> r.value.model == ModelName(env, lookup)
    ensures r.Some? ==> r.value.auth == Bearer(Template(env.openAiApiKey))
    ensures r.Some? ==> Some(r.value.messages) == OutboundMessages(systemPrompts, conversations)
  {
    match OutboundMessages(systemPrompts, conversations)
    case None => None
    case Some(ms) =>
      Some(ProviderPost(BaseUrl, CompletionsPath, Bearer(Template(env.openAiApiKey)),
                        ClientAgent(env), ModelName(env, lookup), ms))
  }

  /** `openaiCompletion`: every failure, including a throwing transport,
      ends in the `catch` and yields `undefined`. */
  function Completion(env: Env, lookup: ParameterLookup, systemPrompts: Option<seq<Message>>,
                      conversations: Option<seq<Message>>, send: Transport): (r: Option<ProviderResponse>)
    ensures conversations.None? ==> r.None?
    ensures r.Some? ==> Request(env, lookup, systemPrompts, conversations).Some?
    ensures r.Some? ==> send(Request(env, lookup, systemPrompts, conversations).value) == r
    ensures conversations.Some? ==> r == send(Request(env, lookup, systemPrompts, conversations).value)
  {
    match Request(env, lookup, systemPrompts, conversations)
    case None => None
    case Some(p) => send(p)
  }
}

=== FILE: password_api.dfy ===
/** The password-change route: on PUT, the signed-in user's current
    password must match the stored hash, and then only that user's hash is
    replaced. Hashing and comparison are parameters standing for bcrypt
    (`hash` includes the salt it draws). */
module PasswordApi {
  import opened Js
  import opened Domain

  const MethodNotAllowed: string := "メソッドが許可されていません"
  const WrongPassword: string := "現在のパスワードが正しくありません"

  datatype PasswordRequest = PasswordRequest(
    httpMethod: string,
    currentPassword: Option<string>,
    newPassword: Option<string>)

  /** `ServerError` is the 500 reply every caught exception produces. */
  datatype PasswordBody = Updated(user: UserRecord) | ErrorMessage(text: string) | ServerError

  datatype PasswordOutcome = PasswordOutcome(status: int, body: PasswordBody, users: seq<UserRecord>)

  /** `user.update({ where: { id }, data: { password } })`. */
  function SetPassword(users: seq<UserRecord>, id: int, password: string): (r: seq<UserRecord>)
    ensures |r| == |users|
    ensures forall i :: 0 <= i < |r| ==>
      r[i] == if users[i].id == id then users[i].(password := password) else users[i]
  {
    seq(|users|, i requires 0 <= i < |users| =>
      if users[i].id == id then users[i].(password := password) else users[i])
  }

  /** The handler. A missing session or user, a missing password (bcrypt
      rejects it) and a failing update all throw inside the `try` and end
      as 500; `updateFails` says whether the update throws. */
  function Handle(session: Option<Session>, users: seq<UserRecord>, req: PasswordRequest,
                  hash: string -> string, matches: (string, string) -> bool,
                  updateFails: bool): (r: PasswordOutcome)
    ensures r.status in {200, 401, 405, 500}
    ensures session.None? ==> r.status == 500
    ensures session.Some? && req.httpMethod != "PUT" ==>
      r == PasswordOutcome(405, ErrorMessage(MethodNotAllowed), users)
    ensures r.status == 405 <==> session.Some? && req.httpMethod != "PUT"
    ensures r.status == 500 <==>
      || session.None?
      || (&& req.httpMethod == "PUT"
          && var me := FindByEmail(users, session.value.email);
             || me.None?
             || req.currentPassword.None?
             || (matches(req.currentPassword.value, me.value.password) && (req.newPassword.None? || updateFails)))
    ensures r.status != 200 ==> r.users == users
    ensures r.status == 401 <==>
      && session.Some? && req.httpMethod == "PUT"
      && FindByEmail(users, session.value.email).Some?
      && req.currentPassword.Some?
      && !matches(req.currentPassword.value, FindByEmail(users, session.value.email).value.password)
    ensures r.status == 200 ==>
      && session.Some? && req.httpMethod == "PUT"
      && FindByEmail(users, session.value.email).Some?
      && req.currentPassword.Some? && req.newPassword.Some?
      && var me := FindByEmail(users, session.value.email).value;
         && matches(req.currentPassword.value, me.password)
         && r.body == Updated(me.(password := hash(req.newPassword.value)))
         && r.users == SetPassword(users, me.id, hash(req.newPassword.value))
    ensures
      && session.Some? && req.httpMethod == "PUT"
      && FindByEmail(users, session.value.email).Some?
      && req.currentPassword.Some? && req.newPassword.Some?
      && matches(req.currentPassword.value, FindByEmail(users, session.value.email).value.password)
      && !updateFails
      ==> r.status == 200
  {
    match session
    case None => PasswordOutcome(500, ServerError, users)
    case Some(s) =>
      var current := FindByEmail(users, s.email);
      if req.httpMethod != "PUT" then PasswordOutcome(405, ErrorMessage(MethodNotAllowed), users)
      else if current.None? || req.currentPassword.None? then PasswordOutcome(500, ServerError, users)
      else if !matches(req.currentPassword.value, current.value.password) then
        PasswordOutcome(401, ErrorMessage(WrongPassword), users)
      else if req.newPassword.None? || updateFails then PasswordOutcome(500, ServerError, users)
      else
        var hashed := hash(req.newPassword.value);
        PasswordOutcome(200, Updated(current.value.(password := hashed)),
                        SetPassword(users, current.value.id, hashed))
  }

  /** With distinct ids, a successful change touches exactly one field of
      exactly one user: the signed-in user's password. */
  lemma {:induction false} OnlyOwnPasswordChanges(
    session: Option<Session>, users: seq<UserRecord>, req: PasswordRequest,
    hash: string -> string, matches: (string, string) -> bool)
    requires forall i, j :: 0 <= i < j < |users| ==> users[i].id != users[j].id
    requires Handle(session, users, req, hash, matches, false).status == 200
    ensures var r := Handle(session, users, req, hash, matches, false);
      && |r.users| == |users|
      && (exists k :: 0 <= k < |users| && users[k].email == session.value.email
           && r.users[k] == users[k].(password := hash(req.newPassword.value))
           && forall i :: 0 <= i < |users| && i != k ==> r.users[i] == users[i])
  {
    var me := FindByEmail(users, session.value.email).value;
    var k :| 0 <= k < |users| && users[k] == me;
    var r := Handle(session, users, req, hash, matches, false);
    forall i | 0 <= i < |users| && i != k
      ensures r.users[i] == users[i]
    {
      if i < k {
        assert users[i].id != users[k].id;
      } else {
        assert users[k].id != users[i].id;
      }
    }
  }

  /** A signed-in user who gives the right current password and a new one
      gets 200, and from then on the stored hash is the new password's. */
  lemma {:induction false} MatchingPasswordIsStored(
    s: Session, users: seq<UserRecord>, current: string, next: string,
    hash: string -> string, matches: (string, string) -> bool)
    requires FindByEmail(users, s.email).Some?
    requires matches(current, FindByEmail(users, s.email).value.password)
    ensures var r := Handle(Some(s), users, PasswordRequest("PUT", Some(current), Some(next)), hash, matches, false);
      && r.status == 200
      && FindByEmail(r.users, s.email) == Some(FindByEmail(users, s.email).value.(password := hash(next)))
  {
    var me := FindByEmail(users, s.email).value;
    var r := Handle(Some(s), users, PasswordRequest("PUT", Some(current), Some(next)), hash, matches, false);
    SetPasswordKeepsLookup(users, me, hash(next));
  }

  /** Changing the password of the first user with an e-mail keeps that
      user the first one found, now with the new password. */
  lemma {:induction false} SetPasswordKeepsLookup(users: seq<UserRecord>, me: UserRecord, password: string)
    requires FindByEmail(users, me.email) == Some(me)
    ensures FindByEmail(SetPassword(users, me.id, password), me.email) == Some(me.(password := password))
    decreases |users|
  {
    var r := SetPassword(users, me.id, password);
    if users[0].email == me.email {
      assert r[0] == me.(password := password);
    } else {
      assert r[0].email == users[0].email;
      assert r[1..] == SetPassword(users[1..], me.id, password);
      SetPasswordKeepsLookup(users[1..], me, password);
    }
  }
}

=== FILE: prompt_display.dfy ===
/** The `displayPrompts` object the three conversation pages show next to
    a reply. Each of the five prompt fragments is spread in under the
    primary prompt's description, so at most one fragment survives: the last
    non-empty one. The consultation and interview pages start the object
    with the user's input under a fixed key. */
module PromptDisplay {
  import opened Js
  import opened Domain

  const UserInputKey: string := "ユーザーの入力"

  /** `...(description && prompt && { [description]: prompt })`. */
  function Spread(o: Obj<string>, description: Option<string>, prompt: Option<string>): Obj<string> {
    if Truthy(description) && Truthy(prompt) then Put(o, description.value, prompt.value) else o
  }

  /** Spreads each fragment in turn, first to last. */
  function SpreadAll(base: Obj<string>, description: Option<string>, ps: seq<Option<string>>): Obj<string> {
    if ps == [] then base
    else Spread(SpreadAll(base, description, ps[..|ps| - 1]), description, ps[|ps| - 1])
  }

  function Fragments(ep: ApiEndpoint): seq<Option<string>> {
    [ep.primaryPrompt, ep.secondaryPrompt, ep.tertiaryPrompt, ep.quaternaryPrompt, ep.quinaryPrompt]
  }

  /** The last non-empty fragment of a list, if any. */
  function LastNonEmpty(ps: seq<Option<string>>): (r: Option<string>)
    ensures r.Some? ==> r.value != "" && r in ps
    ensures r.None? <==> forall p :: p in ps ==> !Truthy(p)
    ensures r.Some? ==> exists i :: 0 <= i < |ps| && ps[i] == r && forall j :: i < j < |ps| ==> !Truthy(ps[j])
    decreases |ps|
  {
    if ps == [] then None
    else if Truthy(ps[|ps| - 1]) then ps[|ps| - 1]
    else
      var init := ps[..|ps| - 1];
      assert forall p :: p in ps <==> p in init || p == ps[|ps| - 1] by {
        assert ps == init + [ps[|ps| - 1]];
      }
      var r := LastNonEmpty(init);
      assert r.Some? ==> exists i :: 0 <= i < |ps| && ps[i] == r && forall j :: i < j < |ps| ==> !Truthy(ps[j]) by {
        if r.Some? {
          var i :| 0 <= i < |init| && init[i] == r && forall j :: i < j < |init| ==> !Truthy(init[j]);
          assert ps[i] == init[i];
          forall j | i < j < |ps| ensures !Truthy(ps[j]) {
            if j < |init| { assert ps[j] == init[j]; }
          }
        }
      }
      r
  }

  /** The five spreads, primary first, onto `base`. */
  function Build(base: Obj<string>, ep: ApiEndpoint): Obj<string> {
    SpreadAll(base, ep.primaryPromptDescription, Fragments(ep))
  }

  /** However many fragments are spread, the result is `base` with at most
      the description key assigned, to the last non-empty fragment. */
  lemma {:induction false} SpreadAllShape(base: Obj<string>, description: Option<string>, ps: seq<Option<string>>)
    ensures var last := LastNonEmpty(ps);
      SpreadAll(base, description, ps)
        == if Truthy(description) && last.Some? then Put(base, description.value, last.value) else base
  {
    if ps != [] {
      var init, p := ps[..|ps| - 1], ps[|ps| - 1];
      SpreadAllShape(base, description, init);
      if Truthy(description) && Truthy(p) && LastNonEmpty(init).Some? {
        PutTwice(base, description.value, LastNonEmpty(init).value, p.value);
      }
    }
  }

  /** The free-chat page: empty when the description or every fragment is
      empty, otherwise exactly one entry, the description mapped to the last
      non-empty fragment. */
  function ChatDisplay(ep: ApiEndpoint): (r: Obj<string>)
    ensures var d, last := ep.primaryPromptDescription, LastNonEmpty(Fragments(ep));
      r == if Truthy(d) && last.Some? then [(d.value, last.value)] else []
  {
    SpreadAllShape([], ep.primaryPromptDescription, Fragments(ep));
    Build([], ep)
  }

  /** The consultation and interview pages: the user's input always comes
      first, and the description entry is added after it, or replaces it
      when the description is the user-input key itself. */
  function WithUserInput(userInput: string, ep: ApiEndpoint): (r: Obj<string>)
    ensures var d, last := ep.primaryPromptDescription, LastNonEmpty(Fragments(ep));
      r == if !Truthy(d) || last.None? then [(UserInputKey, userInput)]
           else if d.value == UserInputKey then [(UserInputKey, last.value)]
           else [(UserInputKey, userInput), (d.value, last.value)]
  {
    SpreadAllShape([(UserInputKey, userInput)], ep.primaryPromptDescription, Fragments(ep));
    Build([(UserInputKey, userInput)], ep)
  }
}

=== FILE: system_parameters.dfy ===
/** The override rule shared by the provider clients: a value stored in the
    system-parameter table wins when it is a non-empty string, otherwise the
    environment variable is used, and a failed lookup is logged and yields
    `undefined`. */
module SystemParameters {
  import opened Js
  import opened Domain

  /** `parameter?.value || envValue` inside a `try` whose `catch` only logs. */
  function Resolve(lookup: ParameterLookup, envValue: Option<string>): (r: Option<string>)
    ensures lookup.Record? && lookup.value != "" ==> r == Some(lookup.value)
    ensures lookup.NoRecord? || lookup == Record("") ==> r == envValue
    ensures lookup.LookupFailed? ==> r == None
  {
    match lookup
    case LookupFailed => None
    case NoRecord => envValue
    case Record(v) => Or(Some(v), envValue)
  }

  /** The stored value decides alone when it is non-empty: the environment
      cannot change the result. */
  lemma StoredValueShadowsEnv(v: string, e1: Option<string>, e2: Option<string>)
    requires v != ""
    ensures Resolve(Record(v), e1) == Resolve(Record(v), e2) == Some(v)
  {
  }
}
